=== FILE: README.md ===
# pod: split, link and header patch, modelled in Dafny

`pod` rebuilds a 32-bit PE executable from pieces so that parts of it can be
replaced by hand-written assembly. The pipeline has four stages:

1. **initialize** writes a project descriptor. It holds one `copy` unit per
   section and the default tool paths.
2. **split** zeroes every section's raw bytes to make the *donee* template.
   It checks that each descriptor section's units tile the PE section. It
   turns every `copy` unit into MASM `DB` lines of at most 49 values and
   writes a link script. The script has one region per section, each
   listing its units' object files.
3. **link** runs the external linker to get a *donor* image. For each
   original section it finds the donor section with the same 8-byte name.
   It requires an equal raw size and byte-identical contents, reporting the
   first differing index. Then it copies the donor bytes into the donee.
4. **patch-exe** fixes the linked image's header:
   - it rewrites each section-table VirtualSize field from the original
     section of the same name;
   - it rewrites the export, import and resource data directories from the
     original image.

This project models those four stages as pure functions over byte
sequences (`seq<Byte>`). It returns a `Result` whose error cases carry the
section name, unit index, sizes or byte values that the source puts in its
messages. It proves:

- what each stage computes;
- how each stage fails;
- two cross-stage facts:
  - split followed by a successful link gives back the original file byte
    for byte;
  - the descriptor that initialize builds passes split's checks only when
    the image base is 0 (see Findings).

Modules, one per file:

| module | contents |
|---|---|
| `Wrappers` | `Option` and `Result` types. |
| `Bytes` | `Byte`, `U32`, `Overwrite`, and the little-endian 32-bit encoding with its round trips. |
| `Pe` | The parsed image: sections, image base, entry point and data directories. |
| `Descriptor` | The project descriptor: units, kind tags, the section lookup, and unit tiling. |
| `Chunks` | The 49-value `DB` line chunking. |
| `Initializer` | The initialize stage. |
| `Splitter` | The split stage. |
| `Reconciler` | The section loop of the link stage. |
| `HeaderPatcher` | The patch-exe stage. |
| `Pipeline` | Lemmas that span several stages. |

Byte offsets follow these sections of the Microsoft PE/COFF specification:

- "MS-DOS Stub (Image Only)": the signature pointer at 0x3c.
- "COFF File Header": the signature and COFF header, 0x18 bytes.
- "Section Table (Section Headers)": 40-byte entries, with VirtualSize at entry offset 8.
- "Optional Header Data Directories (Image Only)": sixteen 8-byte slots ending the optional header; export, import and resource are slots 0, 1 and 2.

Behaviour of the source that a reader might not expect, as modelled:

- **Split's section loop runs over the PE sections**
  (src/commands/split.rs:72) and looks each one up in the descriptor by
  name (src/commands/split.rs:76). A descriptor section the image lacks is
  never examined.
- **Name matching in link and patch-exe compares the raw 8-byte name
  fields** of the two section tables (src/commands/link.rs:69-72,
  src/commands/patch_exe.rs:61).
- **Decoded names can still fail a stage.** Link stops with an error on a
  section whose name does not decode (src/commands/link.rs:66-68).
  Patch-exe unwraps the decoded name of a matched entry for its progress
  message (src/commands/patch_exe.rs:63). An undecodable name there stops
  the stage before the file is written; the model reports it as
  `EntryNameUndecodable`.
- **Unit kinds are a free-form tag** (src/commands/split.rs:90-166). Only
  `copy` and `asm` are accepted; any other tag is an error that quotes it.
- **The donee is built first** (src/commands/split.rs:33-39, before the
  section loop at src/commands/split.rs:72). So a raw range outside the
  file is reported before any unit error.
- **Every Rust slice, unwrap or arithmetic step that would panic is an
  explicit error case:**
  - `RawDataOutOfFile` and `CopyRangeOutOfFile` in split
    (src/commands/split.rs:38, src/commands/split.rs:99);
  - `SectionEndOverflow` in split, for the 32-bit sum of a section's
    virtual address and raw size (src/commands/split.rs:174);
  - `RangeOutOfFile` in link, for the donor and original slices
    (src/commands/link.rs:85-86) and for the donee slice that receives the
    donor bytes (src/commands/link.rs:103-104);
  - `SignaturePointerTruncated`, `DirectoryOffsetUnderflow` and
    `DirectoryOutOfFile` in patch-exe (src/commands/patch_exe.rs:46, 67
    and 71-84);
  - `EntryNameUndecodable` in patch-exe, for the unwrapped name of a
    matched entry (src/commands/patch_exe.rs:63).
- **Some error cases are the source's own error returns, not panics.**
  `SectionTableTruncated` stands for the `Err` that the section-table
  parser's result is mapped to (src/commands/patch_exe.rs:59). Split's
  name, configuration, contiguity, kind and size errors are `Err` returns
  as well.

## Model

| member | source | states |
|---|---|---|
| Bytes.Overwrite | src/commands/link.rs:103-104 | Overwriting a sub-range keeps the length. The range holds the new bytes and every byte outside it is unchanged. |
| Bytes.LeValueOfBytes | src/commands/patch_exe.rs:71-72 | Reading back the four little-endian bytes of a u32 gives the value. |
| Bytes.LeBytesOfValue | src/commands/patch_exe.rs:45-54 | Encoding the value read from four bytes gives those bytes back: `from_le_bytes` and `to_le_bytes` are inverse. |
| Pe.FindByRawName | src/commands/link.rs:69-73 | The result is the first section whose 8-byte name equals the key, or none exactly when no section has that name. |
| Descriptor.ParseKind | src/commands/split.rs:90-166 | A tag means copy if and only if it is `copy`, and asm if and only if it is `asm`. Any other tag is invalid and kept for the error. |
| Descriptor.FindDescSection | src/commands/split.rs:76 | The result is the first descriptor section of the given name, or none exactly when none has it. |
| Chunks.DbLines | src/commands/split.rs:101-113 | The lines concatenate back to the data. Every line but the last holds 49 values, the last holds 1 to 49, and there are ceil(n/49) lines. Empty data gives no line. |
| Chunks.DbLinesOfFlatten | src/commands/split.rs:101-113 | Chunking the concatenation of any well-chunked lines returns those lines, so the line structure is determined by the bytes. |
| Splitter.Donee | src/commands/split.rs:33-39 | It succeeds if and only if every raw range lies in the file. The result has the file's length, zero inside every section's raw range and the original bytes elsewhere. |
| Splitter.UnitArtifact | src/commands/split.rs:90-166 | A unit yields an artifact if and only if it is a copy unit whose slice lies in the file, or an asm unit that names a file. Otherwise the error is a range, missing-file or invalid-kind error naming the section and unit index. |
| Splitter.UnitArtifactLines | src/commands/split.rs:95-113 | A copy unit's lines concatenate to exactly `file[ptr + addr - va - base, +raw_size)`, each of at most 49 values. |
| Splitter.CopyStartAfterPrefix | src/commands/split.rs:95-97 | In a contiguous prefix, unit `j`'s bytes start at the section's raw offset plus the raw sizes of units `0..j`, right after the bytes of the units before it. |
| Splitter.SectionUnits | src/commands/split.rs:83-180 | The unit loop yields one artifact per remaining unit. Every error it raises names the section being split and is a unit, size or overflow error, never a raw-data, name or missing-configuration error. |
| Splitter.SectionUnitsTile | src/commands/split.rs:83-180 | If the unit loop succeeds, the units are contiguous from `image_base + virtual_address` and their sizes sum to the section's raw size. |
| Splitter.SectionUnitsAccept | src/commands/split.rs:83-180 | Conversely, units that tile the section, have known kinds, name their asm files and have copy slices in the file pass the loop. This holds when the section end fits in 32 bits. |
| Splitter.SectionUnitsRejectsStart | src/commands/split.rs:83-88 | A start error names unit `i` where every earlier unit began in place and unit `i` does not begin where its predecessors end. |
| Splitter.SectionUnitsRejectsAsm | src/commands/split.rs:145-159 | A missing-file error names a unit that begins in place after contiguous units and is an `asm` unit with no file. |
| Splitter.SectionUnitsRejectsKind | src/commands/split.rs:161-166 | An invalid-kind error names a unit that begins in place after contiguous units, whose tag is neither `copy` nor `asm`, and quotes that tag. |
| Splitter.SectionUnitsRejectsCopyRange | src/commands/split.rs:95-99 | A copy-range error names a copy unit that begins in place after contiguous units and whose bytes, taken right after those of the units before it, run past the end of the file. |
| Splitter.SectionUnitsRejectsSize | src/commands/split.rs:169-180 | A size error means every unit began in place and the sizes do not sum to the section's raw size. |
| Splitter.SectionUnitsRejectsOverflow | src/commands/split.rs:173-174 | A section-end overflow error means every unit began in place and the section's virtual address plus its raw size exceeds the 32-bit range. |
| Splitter.SectionUnitsArtifacts | src/commands/split.rs:85-170 | On success, artifact `j` belongs to unit `j`. A copy artifact's lines hold the file bytes at the section's raw offset plus the sizes of units `0..j`. |
| Splitter.CopySlicesTileSection | src/commands/split.rs:95-99 | For copy-only units, the lines of units `0..n` concatenate to the section's raw bytes up to the sum of their sizes: the copy slices tile the raw range in order. |
| Splitter.SplitSections | src/commands/split.rs:72-189 | The section loop yields one region per remaining PE section. |
| Splitter.SplitSectionsRejectsName | src/commands/split.rs:72-75 | A name error names the first PE section whose name does not decode. Every PE section before it passes: its name decodes, the descriptor has it and its unit loop succeeds. |
| Splitter.SplitSectionsRejectsMissing | src/commands/split.rs:72-188 | A missing-configuration error names a section the descriptor lacks, and it is the name of a PE section before which every PE section passes. Descriptor sections absent from the image never cause it. |
| Splitter.SplitSectionsFailsFirst | src/commands/split.rs:72-180 | A unit, kind, copy-range, size or overflow error of the section loop is the error of the unit loop of one PE section. That section has a decodable name equal to the one in the error and a descriptor section. Every PE section before it passes: its name decodes, the descriptor has it and its unit loop succeeds. |
| Splitter.SplitSectionsSucceeds | src/commands/split.rs:72-189 | The section loop from a given PE section succeeds if and only if every PE section from there on passes. |
| Splitter.SplitSectionsFit | src/commands/split.rs:72-81 | On success there is one region per PE section, in PE order. Each carries its section's name and `image_base + virtual_address`, and the units of the same-named descriptor section tile it and yield its artifacts. |
| Splitter.Split | src/commands/split.rs:67-81 | On success: the donee as in `Donee`, `_start = image_base + entry`, and one fitting region per section, in order. If a raw range is outside the file, it fails with a raw-data error. |
| Splitter.SplitSucceeds | src/commands/split.rs:33-189 | The split stage succeeds if and only if every section's raw range lies in the file and every PE section passes. |
| Splitter.SplitFailsFirst | src/commands/split.rs:33-180 | A unit-level error of the split stage comes only when every raw range lies in the file. It is the error of the first PE section whose unit loop fails, and it names that section. Every section before it passes. |
| Splitter.SplitRejectsSection | src/commands/split.rs:33-188 | A name or missing-configuration error of the split stage comes only when every raw range lies in the file. It names the first PE section that fails that way: every PE section before it passes. |
| Splitter.SplitObjects | src/commands/split.rs:142-153 | In a successful split's link script, the region of PE section `k` lists one object per unit of that section's descriptor entry, in unit order. Object `j` is named by the section and `j`, and is a copy object exactly when unit `j`'s tag is `copy`, otherwise an asm object. |
| Reconciler.FirstMismatch | src/commands/link.rs:88-95 | The result is the smallest index where the two slices differ, with all earlier bytes equal. It is none exactly when they agree on their common length. |
| Reconciler.CheckSection | src/commands/link.rs:65-101 | A section passes if and only if its name decodes and the donor has a section of the same 8-byte name, raw size and bytes. On success the result is the original's raw bytes. A name error cites the section's index, and every other error its decoded name. |
| Reconciler.CheckSectionReports | src/commands/link.rs:69-95 | Each failure carries what the source reports: a missing donor section, both raw sizes (which differ), or the first differing index with the donor's and the original's byte values and an equal prefix before it. |
| Reconciler.Reconcile | src/commands/link.rs:65-113 | The section loop keeps the donee's length. |
| Reconciler.ReconcileSucceeds | src/commands/link.rs:65-113 | The loop succeeds if and only if every remaining section passes its checks and fits the donee. |
| Reconciler.ReconcileBytes | src/commands/link.rs:103-104 | After the loop, bytes in the processed sections' raw ranges are the original's and every other byte is the buffer's. |
| Reconciler.ReconcileFailsFirst | src/commands/link.rs:65-113 | A failure is the error of the first failing section, all earlier sections having passed. |
| Reconciler.Link | src/commands/link.rs:57-116 | The final image exists if and only if every section passes, and then has the donee's length. Section ranges hold the original bytes and all other bytes are the donee's. A failure is the first failing section's error. |
| Reconciler.LinkReportsFirstMismatch | src/commands/link.rs:85-95 | When sections before `t` pass and section `t` fails its checks, link fails with exactly that section's error, index and byte values. |
| Reconciler.IdentityDonorLinks | src/commands/link.rs:65-113 | With the original file as donor, distinct raw names and names that decode, link succeeds. |
| HeaderPatcher.SignaturePointer | src/commands/patch_exe.rs:44-54 | It succeeds if and only if bytes 0x3c..0x40 exist, and then the value is their little-endian reading. |
| HeaderPatcher.SectionWrites | src/commands/patch_exe.rs:58-65 | The section-table walk fails only with a truncated-entry or undecodable-name error naming a visited entry. |
| HeaderPatcher.SectionWritesOutcome | src/commands/patch_exe.rs:58-65 | The walk succeeds if and only if the last entry fits in the file and every matched entry's decoded name is text. Otherwise it names the first entry that is truncated, or that matches with an undecodable name; every earlier entry fits and, when matched, decodes. |
| HeaderPatcher.MatchedNamesDecodeAll | src/commands/patch_exe.rs:61-63 | The entry-by-entry decoding test used by the walk holds if and only if every matched entry from `e` on has a decoded name. |
| HeaderPatcher.SectionWritesCover | src/commands/patch_exe.rs:61-62 | A successful walk plans, for every matched entry, the store of the first same-named original section's virtual size at that entry's VirtualSize field. |
| HeaderPatcher.SlotWrites | src/commands/patch_exe.rs:70-85 | One slot's writes exist if and only if the original lacks that directory or its 8 bytes lie in the file. A present slot gets its virtual address at the slot and its size 4 bytes on. A failure names the slot. |
| HeaderPatcher.DirectoryWritesOutcome | src/commands/patch_exe.rs:67-89 | The directory writes succeed if and only if every present slot lies in the file. A failure names a present slot that runs past the end. |
| HeaderPatcher.DirectoryWritesCover | src/commands/patch_exe.rs:67-89 | A successful directory walk writes both halves of every present slot. |
| HeaderPatcher.PatchWrites | src/commands/patch_exe.rs:56-89 | The planned 4-byte stores exist if and only if the image is patchable. They all lie in the file and are pairwise disjoint. |
| HeaderPatcher.Patch | src/commands/patch_exe.rs:39-89 | It succeeds if and only if the signature pointer, every visited table entry and every present directory slot lie in the file, every matched entry's name decodes, and the table starts at least 0x80 bytes in. The result has the linked file's length. |
| HeaderPatcher.PatchRejects | src/commands/patch_exe.rs:44-89 | Each error is raised at its own step: truncated signature pointer; a table entry past the end; a matched entry whose name does not decode, after every earlier matched entry's did; a table offset below 0x80; or a present directory slot past the end. |
| HeaderPatcher.PatchVirtualSizes | src/commands/patch_exe.rs:56-65 | Entry `e`'s VirtualSize field, at `table + 40e + 8`, holds the LE bytes of the first same-named original section's virtual size. With no match it is unchanged. |
| HeaderPatcher.PatchedVirtualSizeReadsBack | src/commands/patch_exe.rs:62 | A patched VirtualSize field read back as a little-endian u32 is the original section's virtual size. |
| HeaderPatcher.PatchDirectories | src/commands/patch_exe.rs:67-86 | Each present slot `s` (export 0, import 1, resource 2) at `table - 0x80 + 8s` holds the original's virtual address then size, both as LE bytes and read back. |
| HeaderPatcher.PatchKeepsRest | src/commands/patch_exe.rs:39-89 | Every byte outside the rewritten VirtualSize fields and present directory slots keeps the linked file's value. So do unmatched entries, absent slots and the whole directory area when there is no optional header. |
| Initializer.DefaultSections | src/commands/init.rs:27-48 | It succeeds if and only if every section name decodes. Then there is one descriptor section per PE section, in order, each with one copy unit. On failure it reports the first undecodable name, with no partial list. |
| Initializer.Init | src/commands/init.rs:27-60 | It succeeds if and only if all names decode. The paths are `ml`, `cl` and `ld`. Each section has one copy unit tiling the range from its relative virtual address over its raw size. |
| Initializer.InitAt | src/commands/init.rs:27-60 | For a given unit offset: it succeeds if and only if all names decode, keeps the executable and hash, sets the paths `ml`, `cl` and `ld`, and gives each section one copy unit tiling the range from the offset plus its relative virtual address over its raw size. A failure names an undecodable section. |
| Initializer.InitAbsolute | src/commands/init.rs:41-45 | The corrected descriptor: it succeeds if and only if all names decode, with the paths `ml`, `cl` and `ld` and one copy unit per section tiling the range from `image_base + virtual_address` over its raw size. A failure names an undecodable section. |
| Pipeline.InitThenSplitSucceedsAtZeroBase | src/commands/init.rs:41-45 | With image base 0, the initialized descriptor passes every split check, given raw ranges in the file, decodable distinct names and 32-bit section ends. |
| Pipeline.InitThenSplitFailsAtNonzeroBase | src/commands/split.rs:83-88 | With a nonzero image base, split of the initialized descriptor fails on unit 0 of the first section with a start error. |
| Pipeline.InitAbsoluteThenSplitSucceeds | src/commands/split.rs:83-180 | The corrected descriptor passes every split check for any image base, under the same conditions. |
| Pipeline.SplitThenLinkRestoresOriginal | src/commands/link.rs:85-104 | If link succeeds on split's donee, the final image equals the original file byte for byte, whatever the donor. |
| Pipeline.IdentityToolchainRoundTrip | src/commands/link.rs:65-116 | With a byte-accurate toolchain, whose donor is the original, split then link returns the original. |
| Pipeline.SplitCopyLinesReproduceSection | src/commands/split.rs:95-113 | For a copy-only section, the `DB` lines of its region, read in unit order, are exactly the section's raw bytes. |

## Left out

- File and directory I/O, console output, asm and link-script file writing, and extracting the executable name from its path. Stage outputs are returned values instead.
- Files written before an error. The source writes the donee and earlier asm files before a later unit fails; the model returns only the error.
- Spawning the external linker (src/commands/link.rs:32-55). The donor image and its section table are parameters of `Reconciler.Link`.
- Parsing PE images with the goblin library. Sections and header fields are given records:
  - `Section.name` is the parser's decoded name, `None` when decoding fails;
  - `rawName` is the 8-byte field;
  - for patch-exe, only the 40-byte entry layout of the section table is modelled, and the name each entry decodes to is the parser's decoded name of the linked image's section at the same index.
- Hashing with blake3, and TOML serialisation and parsing. The hash is a parameter of `Initializer.Init`.
- Descriptor staleness: no stage compares the hash, and neither does the model.
- CLI dispatch, exit codes, and the `gen` command, which always fails.
- src/config.rs as written: its types disagree with their users. The descriptor is rebuilt from its call sites.
- Text rendering: decimal byte values, `DB`, the `.asm` framing, and hex addresses in the link script. The model keeps the line structure, the addresses and the object-name parts.
- Integer widths:
  - `usize` is unbounded;
  - the 32-bit sum `virtual_address + size_of_raw_data` in split's size check (src/commands/split.rs:174) is an error when it exceeds 32 bits, as in a debug build, instead of wrapping as in a release build;
  - the `usize` subtraction of 0x80 in patch-exe is an error when it would go below 0.
- HeaderPatcher.SectionWrites: an entry whose name field starts with `/` is a long-name reference that the source's entry parser resolves through a string table at file offset 0 (src/commands/patch_exe.rs:59). That parser's own failure, and a decoded name that differs from the image parser's, are not modelled.
- Pe.Section: `rawName` is not constrained to 8 bytes. Matching always compares it with an 8-byte slice of a section table, so a record of another length never matches.
- HeaderPatcher.Patch: computed as a list of 4-byte writes, then applied. This is equivalent because the source reads only the unpatched file and writes only the copy.
- Pipeline.InitThenSplitSucceedsAtZeroBase: distinct section names and 32-bit section ends are assumed as sufficient conditions, not the weakest ones.
- Pipeline.InitAbsoluteThenSplitSucceeds: under the same sufficient conditions.

## Findings

| source | as written | input that shows it | evidently intended | confidence | as-written member | corrected member |
|---|---|---|---|---|---|---|
| src/commands/init.rs:43 | Each default unit's `addr_virtual` is the section's relative virtual address. | Any image whose image base is not 0, e.g. 0x400000, with at least one section: split rejects unit 0 of the first section because it does not start at `image_base + virtual_address` (src/commands/split.rs:83-88). | `addr_virtual = image_base + virtual_address`, the absolute address split checks against. | medium, not executed | Pipeline.InitThenSplitFailsAtNonzeroBase | Pipeline.InitAbsoluteThenSplitSucceeds |

=== FILE: bytes.dfy ===
/** Byte buffers: the unsigned integer widths a PE file stores, overwriting a
    range of a buffer, and the little-endian 32-bit encoding. */
module Bytes {

  type Byte = b: int | 0 <= b < 0x100
  type U32 = x: int | 0 <= x < 0x1_0000_0000

  const U32_MAX: int := 0xFFFF_FFFF

  /** `n` zero bytes. */
  function Zeros(n: nat): (r: seq<Byte>)
    ensures |r| == n
    ensures forall i :: 0 <= i < n ==> r[i] == 0
  {
    seq(n, _ => 0)
  }

  /** `dst` with the bytes at `at .. at + |src|` replaced by `src`: the effect
      of `fill` and `copy_from_slice` on a sub-slice. */
  function Overwrite(dst: seq<Byte>, at: nat, src: seq<Byte>): (r: seq<Byte>)
    requires at + |src| <= |dst|
    ensures |r| == |dst|
    ensures r[at..at + |src|] == src
    ensures forall k :: at <= k < at + |src| ==> r[k] == src[k - at]
    ensures forall k :: 0 <= k < |dst| && !(at <= k < at + |src|) ==> r[k] == dst[k]
  {
    dst[..at] + src + dst[at + |src|..]
  }

  /** The four bytes of `v`, least significant first (`u32::to_le_bytes`). */
  function LeBytes(v: U32): (b: seq<Byte>)
    ensures |b| == 4
  {
    [v % 0x100, v / 0x100 % 0x100, v / 0x1_0000 % 0x100, v / 0x100_0000]
  }

  /** The value of four bytes read least significant first (`u32::from_le_bytes`). */
  function LeValue(b: seq<Byte>): (v: U32)
    requires |b| == 4
  {
    b[0] as int + 0x100 * (b[1] as int) + 0x1_0000 * (b[2] as int) + 0x100_0000 * (b[3] as int)
  }

  /** Reading back an encoded value yields the value. */
  lemma LeValueOfBytes(v: U32)
    ensures LeValue(LeBytes(v)) == v
  {
    DivModBy(v, 0x100, v / 0x100, v % 0x100);
    DivModBy(v / 0x100, 0x100, v / 0x100 / 0x100, v / 0x100 % 0x100);
    DivModBy(v, 0x1_0000, v / 0x100 / 0x100, v % 0x100 + 0x100 * (v / 0x100 % 0x100));
    DivModBy(v / 0x1_0000, 0x100, v / 0x1_0000 / 0x100, v / 0x1_0000 % 0x100);
    DivModBy(v, 0x100_0000, v / 0x1_0000 / 0x100, v % 0x1_0000 + 0x1_0000 * (v / 0x1_0000 % 0x100));
  }

  /** Encoding a value read from four bytes gives those bytes back. */
  lemma LeBytesOfValue(b: seq<Byte>)
    requires |b| == 4
    ensures LeBytes(LeValue(b)) == b
  {
    var v := LeValue(b);
    var b0: int, b1: int, b2: int, b3: int := b[0], b[1], b[2], b[3];
    DivModBy(v, 0x100, b1 + 0x100 * b2 + 0x1_0000 * b3, b0);
    DivModBy(v / 0x100, 0x100, b2 + 0x100 * b3, b1);
    DivModBy(v, 0x1_0000, b2 + 0x100 * b3, b0 + 0x100 * b1);
    DivModBy(v / 0x1_0000, 0x100, b3, b2);
    DivModBy(v, 0x100_0000, b3, b0 + 0x100 * b1 + 0x1_0000 * b2);
  }

  /** Euclidean division by one of the byte-place constants. */
  lemma DivModBy(x: int, d: int, q: int, r: int)
    requires d == 0x100 || d == 0x1_0000 || d == 0x100_0000
    requires 0 <= r < d && x == d * q + r
    ensures x / d == q && x % d == r
  {
  }
}

=== FILE: chunks.dfy ===
/** Splitting raw bytes into `DB` directive lines of bounded length. */
module Chunks {
  import opened Bytes

  /** The most byte values the target assembler accepts in one `DB` directive. */
  const DbLineCapacity: nat := 49

  /** The concatenation of the lines' values, in order. */
  function Flatten(lines: seq<seq<Byte>>): seq<Byte> {
    if |lines| == 0 then [] else lines[0] + Flatten(lines[1..])
  }

  /** Every line but the last holds exactly `DbLineCapacity` values and the
      last holds between one and `DbLineCapacity`. */
  ghost predicate WellChunked(lines: seq<seq<Byte>>) {
    && (forall i :: 0 <= i < |lines| - 1 ==> |lines[i]| == DbLineCapacity)
    && (|lines| > 0 ==> 0 < |lines[|lines| - 1]| <= DbLineCapacity)
  }

  /** The `DB` lines of `data` (`data.chunks(49)`). */
  function DbLines(data: seq<Byte>): (lines: seq<seq<Byte>>)
    ensures Flatten(lines) == data
    ensures WellChunked(lines)
    ensures |lines| == (|data| + DbLineCapacity - 1) / DbLineCapacity
    decreases |data|
  {
    if |data| == 0 then []
    else if |data| <= DbLineCapacity then [data]
    else [data[..DbLineCapacity]] + DbLines(data[DbLineCapacity..])
  }

  /** Chunking is the only well-formed way to cut data into lines: re-chunking
      the concatenation of well-formed lines gives the same lines. */
  lemma {:induction false} DbLinesOfFlatten(lines: seq<seq<Byte>>)
    requires WellChunked(lines)
    ensures DbLines(Flatten(lines)) == lines
  {
    if |lines| == 0 {
    } else if |lines| == 1 {
      assert Flatten(lines) == lines[0] + Flatten(lines[1..]);
      assert Flatten(lines[1..]) == [];
      assert Flatten(lines) == lines[0];
      assert lines == [lines[0]];
    } else {
      var rest := lines[1..];
      assert WellChunked(rest) by {
        forall i | 0 <= i < |rest| - 1
          ensures |rest[i]| == DbLineCapacity
        {
          assert rest[i] == lines[i + 1];
        }
        assert rest[|rest| - 1] == lines[|lines| - 1];
      }
      DbLinesOfFlatten(rest);
      var data := Flatten(lines);
      assert data == lines[0] + Flatten(rest);
      assert |Flatten(rest)| > 0 by {
        FlattenNonEmpty(rest);
      }
      assert data[..DbLineCapacity] == lines[0];
      assert data[DbLineCapacity..] == Flatten(rest);
    }
  }

  lemma {:induction false} FlattenNonEmpty(lines: seq<seq<Byte>>)
    requires |lines| > 0 && |lines[|lines| - 1]| > 0
    ensures |Flatten(lines)| > 0
  {
    if |lines[0]| == 0 {
      assert |lines| > 1;
      assert lines[1..][|lines[1..]| - 1] == lines[|lines| - 1];
      FlattenNonEmpty(lines[1..]);
    }
  }

  /** Flattening distributes over concatenation of line lists. */
  lemma {:induction false} FlattenAppend(a: seq<seq<Byte>>, b: seq<seq<Byte>>)
    ensures Flatten(a + b) == Flatten(a) + Flatten(b)
  {
    if |a| == 0 {
      assert a + b == b;
    } else {
      assert (a + b)[1..] == a[1..] + b;
      FlattenAppend(a[1..], b);
    }
  }
}

=== FILE: descriptor.dfy ===
/** The project descriptor: per section, the ordered units that produce its
    bytes, plus the executable path, its hash and the external tool paths. */
module Descriptor {
  import opened Wrappers

  /** One unit as the descriptor stores it. `kind` is the free-form tag of
      the project file; `file` is the operator's source for an `asm` unit. */
  datatype Unit = Unit(kind: string, addrVirtual: nat, rawSize: nat, file: Option<string>)

  /** The meaning of a unit's `kind` tag. */
  datatype UnitKind = Copy | Asm | Invalid(tag: string)

  datatype DescSection = DescSection(name: string, units: seq<Unit>)

  datatype Config = Config(
    executable: string,
    hash: string,
    assemblerPath: string,
    compilerPath: string,
    linkerPath: string,
    sections: seq<DescSection>)

  /** Reads a `kind` tag: only `copy` and `asm` are known. */
  function ParseKind(tag: string): (k: UnitKind)
    ensures k == Copy <==> tag == "copy"
    ensures k == Asm <==> tag == "asm"
    ensures k.Invalid? ==> k.tag == tag
  {
    if tag == "copy" then Copy
    else if tag == "asm" then Asm
    else Invalid(tag)
  }

  /** The index of the first descriptor section named `name`. */
  function FindDescSection(sections: seq<DescSection>, name: string): (r: Option<nat>)
    ensures r.Some? ==> r.value < |sections| && sections[r.value].name == name
    ensures r.Some? ==> forall j :: 0 <= j < r.value ==> sections[j].name != name
    ensures r.None? <==> forall j :: 0 <= j < |sections| ==> sections[j].name != name
  {
    if |sections| == 0 then None
    else if sections[0].name == name then Some(0)
    else match FindDescSection(sections[1..], name)
      case None => None
      case Some(i) => Some(i + 1)
  }

  /** The sum of the units' raw sizes. */
  function TotalSize(units: seq<Unit>): nat {
    if |units| == 0 then 0 else TotalSize(units[..|units| - 1]) + units[|units| - 1].rawSize
  }

  lemma TotalSizeStep(units: seq<Unit>, i: nat)
    requires i < |units|
    ensures TotalSize(units[..i + 1]) == TotalSize(units[..i]) + units[i].rawSize
  {
    assert units[..i + 1][..i] == units[..i];
  }

  /** Each of the first `n` units begins where its predecessors end, the first at `start`. */
  ghost predicate ContiguousPrefix(units: seq<Unit>, start: nat, n: nat)
    requires n <= |units|
  {
    forall j :: 0 <= j < n ==> units[j].addrVirtual == start + TotalSize(units[..j])
  }

  /** A unit that begins where the first `n` contiguous units end extends
      the contiguous prefix by one, and the running size by its own. */
  lemma ContiguousExtend(units: seq<Unit>, start: nat, n: nat)
    requires n < |units|
    requires ContiguousPrefix(units, start, n)
    requires units[n].addrVirtual == start + TotalSize(units[..n])
    ensures ContiguousPrefix(units, start, n + 1)
    ensures TotalSize(units[..n + 1]) == TotalSize(units[..n]) + units[n].rawSize
  {
    TotalSizeStep(units, n);
  }

  /** The units cover `[start, start + size)` exactly, in order, with no gap or overlap. */
  ghost predicate Tiles(units: seq<Unit>, start: nat, size: nat) {
    ContiguousPrefix(units, start, |units|) && TotalSize(units) == size
  }
}

=== FILE: init.dfy ===
/** The initialize stage: a default project descriptor for a parsed image,
    one `copy` unit per section covering the section's raw data. */
module Initializer {
  import opened Wrappers
  import opened Pe
  import opened Descriptor

  datatype InitError = BadSectionName(section: nat)

  /** The default assembler, compiler and linker invocations. */
  const DefaultAssembler: string := "ml"
  const DefaultCompiler: string := "cl"
  const DefaultLinker: string := "ld"

  /** The single `copy` unit of a section, starting at `s.virtualAddress + offset`. */
  function CopyUnit(s: Section, offset: nat): (u: Unit)
    ensures ParseKind(u.kind) == Copy && u.file.None?
    ensures u.addrVirtual == offset + s.virtualAddress && u.rawSize == s.sizeOfRawData
  {
    Unit("copy", offset + s.virtualAddress, s.sizeOfRawData, None)
  }

  /** One descriptor section per PE section from `k` on, in order, each unit
      placed at its section's virtual address plus `offset`; the first name
      that does not decode aborts the whole list. */
  function DefaultSections(sections: seq<Section>, offset: nat, k: nat): (r: Result<seq<DescSection>, InitError>)
    requires k <= |sections|
    ensures r.Success? <==> forall i :: k <= i < |sections| ==> sections[i].name.Some?
    ensures r.Failure? ==>
      && k <= r.error.section < |sections|
      && sections[r.error.section].name.None?
      && forall i :: k <= i < r.error.section ==> sections[i].name.Some?
    ensures r.Success? ==> |r.value| == |sections| - k
    ensures r.Success? ==> forall j :: 0 <= j < |r.value| ==>
      r.value[j] == DescSection(sections[k + j].name.value, [CopyUnit(sections[k + j], offset)])
    decreases |sections| - k
  {
    if k == |sections| then Success([])
    else
      match sections[k].name
      case None => Failure(BadSectionName(k))
      case Some(name) =>
        match DefaultSections(sections, offset, k + 1)
        case Failure(e) => Failure(e)
        case Success(rest) =>
          var all := [DescSection(name, [CopyUnit(sections[k], offset)])] + rest;
          assert forall j :: 1 <= j < |all| ==> all[j] == rest[j - 1];
          Success(all)
  }

  /** The descriptor of the source: unit addresses are the sections'
      relative virtual addresses. `hash` is the content fingerprint of the
      executable, computed outside this model. */
  function Init(executable: string, hash: string, img: PeImage): (r: Result<Config, InitError>)
    ensures r.Success? <==> NamesDecode(img.sections)
    ensures r.Success? ==>
      && r.value.executable == executable && r.value.hash == hash
      && r.value.assemblerPath == DefaultAssembler
      && r.value.compilerPath == DefaultCompiler
      && r.value.linkerPath == DefaultLinker
      && |r.value.sections| == |img.sections|
    ensures r.Success? ==> forall j :: 0 <= j < |img.sections| ==>
      && r.value.sections[j].name == img.sections[j].name.value
      && |r.value.sections[j].units| == 1
      && ParseKind(r.value.sections[j].units[0].kind) == Copy
      && Tiles(r.value.sections[j].units, img.sections[j].virtualAddress, img.sections[j].sizeOfRawData)
    ensures r.Failure? ==> r.error.section < |img.sections| && img.sections[r.error.section].name.None?
  {
    InitAt(executable, hash, img, 0)
  }

  /** The descriptor with every unit placed at `offset` plus its section's
      relative virtual address. */
  function InitAt(executable: string, hash: string, img: PeImage, offset: nat): (r: Result<Config, InitError>)
    ensures r.Success? <==> NamesDecode(img.sections)
    ensures r.Success? ==>
      && r.value.executable == executable && r.value.hash == hash
      && r.value.assemblerPath == DefaultAssembler
      && r.value.compilerPath == DefaultCompiler
      && r.value.linkerPath == DefaultLinker
      && |r.value.sections| == |img.sections|
    ensures r.Success? ==> forall j :: 0 <= j < |img.sections| ==>
      && r.value.sections[j].name == img.sections[j].name.value
      && |r.value.sections[j].units| == 1
      && ParseKind(r.value.sections[j].units[0].kind) == Copy
      && Tiles(r.value.sections[j].units, offset + img.sections[j].virtualAddress, img.sections[j].sizeOfRawData)
    ensures r.Failure? ==> r.error.section < |img.sections| && img.sections[r.error.section].name.None?
  {
    match DefaultSections(img.sections, offset, 0)
    case Failure(e) => Failure(e)
    case Success(sections) =>
      forall j | 0 <= j < |img.sections|
        ensures Tiles(sections[j].units, offset + img.sections[j].virtualAddress, img.sections[j].sizeOfRawData)
      {
        SingleUnitTiles(CopyUnit(img.sections[0 + j], offset));
      }
      Success(Config(executable, hash, DefaultAssembler, DefaultCompiler, DefaultLinker, sections))
  }

  /** A single unit tiles exactly the range it names. */
  lemma SingleUnitTiles(u: Unit)
    ensures Tiles([u], u.addrVirtual, u.rawSize)
  {
    assert [u][..0] == [];
    assert [u][..1][..0] == [];
  }

  /** The corrected descriptor: unit addresses are absolute, the image base
      plus the section's relative virtual address, as the split stage's
      start check requires. */
  function InitAbsolute(executable: string, hash: string, img: PeImage): (r: Result<Config, InitError>)
    ensures r.Success? <==> NamesDecode(img.sections)
    ensures r.Success? ==>
      && r.value.executable == executable && r.value.hash == hash
      && r.value.assemblerPath == DefaultAssembler
      && r.value.compilerPath == DefaultCompiler
      && r.value.linkerPath == DefaultLinker
      && |r.value.sections| == |img.sections|
    ensures r.Success? ==> forall j :: 0 <= j < |img.sections| ==>
      && r.value.sections[j].name == img.sections[j].name.value
      && |r.value.sections[j].units| == 1
      && ParseKind(r.value.sections[j].units[0].kind) == Copy
      && Tiles(r.value.sections[j].units, img.imageBase + img.sections[j].virtualAddress, img.sections[j].sizeOfRawData)
    ensures r.Failure? ==> r.error.section < |img.sections| && img.sections[r.error.section].name.None?
  {
    InitAt(executable, hash, img, img.imageBase)
  }
}

=== FILE: patcher.dfy ===
/** The patch-exe stage: restores section-table VirtualSize fields and three
    data-directory entries of the linked image from the original image, at
    offsets computed from the PE header layout (Microsoft PE/COFF
    specification, sections "MS-DOS Stub (Image Only)", "COFF File Header",
    "Section Table (Section Headers)" and "Optional Header Data Directories
    (Image Only)"). */
module HeaderPatcher {
  import opened Wrappers
  import opened Bytes
  import opened Pe

  /** File offset of the 4-byte pointer to the PE signature. */
  const SignaturePointerOffset: nat := 0x3c
  /** The 4-byte signature plus the 20-byte COFF file header. */
  const SignatureAndCoffHeaderSize: nat := 0x18
  /** Size of one section-table entry. */
  const SectionEntrySize: nat := 40
  /** Size of an entry's name field, at entry offset 0. */
  const SectionNameSize: nat := 8
  /** Entry offset of the VirtualSize field. */
  const VirtualSizeField: nat := 8
  /** The 16 eight-byte data directories that end the optional header. */
  const DataDirectoryArraySize: nat := 0x80
  const DataDirectoryEntrySize: nat := 8
  /** Export, import and resource tables: slots 0, 1 and 2. */
  const PatchedDirectorySlots: nat := 3

  datatype PatchError =
    | SignaturePointerTruncated
    | SectionTableTruncated(entry: nat)
    | EntryNameUndecodable(entry: nat)
    | DirectoryOffsetUnderflow
    | DirectoryOutOfFile(slot: nat)

  /** A little-endian 32-bit store of `value` at `offset`. */
  datatype Write = Write(offset: nat, value: U32)

  // ---------------------------------------------------------------- layout

  /** The PE signature pointer: the little-endian u32 at 0x3c..0x40. */
  function SignaturePointer(linked: seq<Byte>): (r: Result<U32, PatchError>)
    ensures r.Success? <==> SignaturePointerOffset + 4 <= |linked|
    ensures r.Success? ==> LeBytes(r.value) == linked[SignaturePointerOffset..SignaturePointerOffset + 4]
  {
    if |linked| < SignaturePointerOffset + 4 then Failure(SignaturePointerTruncated)
    else
      LeBytesOfValue(linked[SignaturePointerOffset..SignaturePointerOffset + 4]);
      Success(LeValue(linked[SignaturePointerOffset..SignaturePointerOffset + 4]))
  }

  /** File offset of the section table: past the signature, the COFF header
      and an optional header of `sizeOfOptionalHeader` bytes. */
  function TableOffset(linked: seq<Byte>, sizeOfOptionalHeader: nat): nat
    requires SignaturePointerOffset + 4 <= |linked|
  {
    SignaturePointer(linked).value + SignatureAndCoffHeaderSize + sizeOfOptionalHeader
  }

  function EntryOffset(table: nat, e: nat): nat {
    table + SectionEntrySize * e
  }

  function VirtualSizeOffset(table: nat, e: nat): nat {
    EntryOffset(table, e) + VirtualSizeField
  }

  /** File offset of data-directory slot `slot`, counted back from the table. */
  function DirectoryOffset(table: nat, slot: nat): nat
    requires DataDirectoryArraySize <= table
  {
    table - DataDirectoryArraySize + DataDirectoryEntrySize * slot
  }

  /** The index of the first original section whose name equals entry `e`'s name field. */
  function EntryMatch(original: seq<Section>, linked: seq<Byte>, table: nat, e: nat): Option<nat>
    requires EntryOffset(table, e) + SectionEntrySize <= |linked|
  {
    FindByRawName(original, linked[EntryOffset(table, e)..EntryOffset(table, e) + SectionNameSize])
  }

  ghost predicate Matched(original: seq<Section>, linked: seq<Byte>, table: nat, e: nat) {
    EntryOffset(table, e) + SectionEntrySize <= |linked| && EntryMatch(original, linked, table, e).Some?
  }

  /** The original's directory in slot `slot`, if it has an optional header and that directory. */
  function Slot(dirs: Option<DataDirectories>, slot: nat): Option<DataDirectory> {
    match dirs
    case None => None
    case Some(d) =>
      if slot == 0 then d.exportTable
      else if slot == 1 then d.importTable
      else if slot == 2 then d.resourceTable
      else None
  }

  // ---------------------------------------------------------------- writes

  /** The writes hit increasing, non-overlapping 4-byte fields. */
  ghost predicate Ascending(ws: seq<Write>) {
    forall a, b :: 0 <= a < b < |ws| ==> ws[a].offset + 4 <= ws[b].offset
  }

  ghost predicate Disjoint(ws: seq<Write>) {
    forall a, b :: 0 <= a < |ws| && 0 <= b < |ws| && a != b ==>
      ws[a].offset + 4 <= ws[b].offset || ws[b].offset + 4 <= ws[a].offset
  }

  ghost predicate Touches(ws: seq<Write>, p: int) {
    exists a :: 0 <= a < |ws| && ws[a].offset <= p < ws[a].offset + 4
  }

  /** Stores every write into `buf`, in order. */
  function ApplyWrites(buf: seq<Byte>, ws: seq<Write>): (r: seq<Byte>)
    requires forall a :: 0 <= a < |ws| ==> ws[a].offset + 4 <= |buf|
    ensures |r| == |buf|
    decreases |ws|
  {
    if |ws| == 0 then buf
    else ApplyWrites(Overwrite(buf, ws[0].offset, LeBytes(ws[0].value)), ws[1..])
  }

  lemma TouchesTail(ws: seq<Write>, p: int)
    requires |ws| > 0 && Touches(ws[1..], p)
    ensures Touches(ws, p)
  {
    var a :| 0 <= a < |ws[1..]| && ws[1..][a].offset <= p < ws[1..][a].offset + 4;
    assert ws[a + 1] == ws[1..][a];
  }

  /** A byte no write touches keeps its value. */
  lemma {:induction false} ApplyWritesKeeps(buf: seq<Byte>, ws: seq<Write>, p: int)
    requires forall a :: 0 <= a < |ws| ==> ws[a].offset + 4 <= |buf|
    requires 0 <= p < |buf| && !Touches(ws, p)
    ensures ApplyWrites(buf, ws)[p] == buf[p]
    decreases |ws|
  {
    if |ws| > 0 {
      if Touches(ws[1..], p) {
        TouchesTail(ws, p);
      }
      assert !(ws[0].offset <= p < ws[0].offset + 4);
      ApplyWritesKeeps(Overwrite(buf, ws[0].offset, LeBytes(ws[0].value)), ws[1..], p);
    }
  }

  /** With no two writes overlapping, each write's field reads back its value. */
  lemma {:induction false} ApplyWritesStores(buf: seq<Byte>, ws: seq<Write>, a: nat)
    requires forall a :: 0 <= a < |ws| ==> ws[a].offset + 4 <= |buf|
    requires Disjoint(ws) && a < |ws|
    ensures ApplyWrites(buf, ws)[ws[a].offset..ws[a].offset + 4] == LeBytes(ws[a].value)
    decreases |ws|
  {
    var next := Overwrite(buf, ws[0].offset, LeBytes(ws[0].value));
    var r := ApplyWrites(next, ws[1..]);
    assert r == ApplyWrites(buf, ws);
    if a == 0 {
      forall p | ws[0].offset <= p < ws[0].offset + 4
        ensures r[p] == next[p]
      {
        ApplyWritesKeeps(next, ws[1..], p);
      }
      assert r[ws[0].offset..ws[0].offset + 4] == next[ws[0].offset..ws[0].offset + 4];
    } else {
      assert Disjoint(ws[1..]) by {
        forall i, j | 0 <= i < |ws[1..]| && 0 <= j < |ws[1..]| && i != j
          ensures ws[1..][i].offset + 4 <= ws[1..][j].offset || ws[1..][j].offset + 4 <= ws[1..][i].offset
        {
          assert ws[1..][i] == ws[i + 1] && ws[1..][j] == ws[j + 1];
        }
      }
      assert ws[a] == ws[1..][a - 1];
      ApplyWritesStores(next, ws[1..], a - 1);
    }
  }

  /** Two ascending write lists, the second wholly below the first, are disjoint when joined. */
  lemma DisjointJoin(upper: seq<Write>, lower: seq<Write>)
    requires Ascending(upper) && Ascending(lower)
    requires forall a, b :: 0 <= a < |upper| && 0 <= b < |lower| ==> lower[b].offset + 4 <= upper[a].offset
    ensures Disjoint(upper + lower)
  {
    var ws := upper + lower;
    forall a, b | 0 <= a < |ws| && 0 <= b < |ws| && a != b
      ensures ws[a].offset + 4 <= ws[b].offset || ws[b].offset + 4 <= ws[a].offset
    {
      if a < |upper| && b >= |upper| {
        assert ws[b] == lower[b - |upper|];
      } else if b < |upper| && a >= |upper| {
        assert ws[a] == lower[a - |upper|];
      } else if a >= |upper| {
        assert ws[a] == lower[a - |upper|] && ws[b] == lower[b - |upper|];
      }
    }
  }

  /** Every write of `ws` lies inside `lo..hi`. */
  ghost predicate Within(ws: seq<Write>, lo: int, hi: int) {
    forall a :: 0 <= a < |ws| ==> lo <= ws[a].offset && ws[a].offset + 4 <= hi
  }

  /** A write below an ascending list, inside the same bounds, extends it. */
  lemma PrependWrite(w: Write, ws: seq<Write>, lo: int, hi: int)
    requires Ascending(ws) && Within(ws, w.offset + 4, hi)
    requires lo <= w.offset && w.offset + 4 <= hi
    ensures Ascending([w] + ws) && Within([w] + ws, lo, hi)
  {
    assert forall a :: 1 <= a < |[w] + ws| ==> ([w] + ws)[a] == ws[a - 1];
  }

  lemma WithinWeaken(ws: seq<Write>, lo: int, hi: int, lo': int, hi': int)
    requires Within(ws, lo, hi) && lo' <= lo && hi <= hi'
    ensures Within(ws, lo', hi')
  {
  }

  // ---------------------------------------------------------------- section table

  /** The VirtualSize writes for section-table entries `e` onwards, one entry
      per section the parser found in the linked image (`entries`). An entry
      that does not fit in the file aborts the walk; an entry whose name field
      matches an original section gets that section's virtual size, and aborts
      the walk when its own name, as the parser decoded it, is not text (the
      progress message after the write unwraps it). */
  function SectionWrites(original: seq<Section>, linked: seq<Byte>, table: nat, entries: seq<Section>, e: nat): (r: Result<seq<Write>, PatchError>)
    ensures r.Failure? ==> (r.error.SectionTableTruncated? || r.error.EntryNameUndecodable?) && e <= r.error.entry < |entries|
    decreases |entries| - e
  {
    if e >= |entries| then Success([])
    else if EntryOffset(table, e) + SectionEntrySize > |linked| then Failure(SectionTableTruncated(e))
    else
      var m := EntryMatch(original, linked, table, e);
      if m.Some? && entries[e].name.None? then Failure(EntryNameUndecodable(e))
      else
        match SectionWrites(original, linked, table, entries, e + 1)
        case Failure(err) => Failure(err)
        case Success(rest) =>
          if m.None? then Success(rest)
          else Success([Write(VirtualSizeOffset(table, e), original[m.value].virtualSize)] + rest)
  }

  /** The VirtualSize value a matched entry receives. */
  function MatchedSize(original: seq<Section>, linked: seq<Byte>, table: nat, e: nat): U32
    requires Matched(original, linked, table, e)
  {
    original[EntryMatch(original, linked, table, e).value].virtualSize
  }

  /** Write `w` targets the VirtualSize field of some matched entry below `count`. */
  ghost predicate VirtualSizeTarget(original: seq<Section>, linked: seq<Byte>, table: nat, count: nat, w: Write) {
    exists e :: 0 <= e < count && Matched(original, linked, table, e) && w.offset == VirtualSizeOffset(table, e)
  }

  lemma TargetOfMatched(original: seq<Section>, linked: seq<Byte>, table: nat, count: nat, e: nat, w: Write)
    requires e < count && EntryOffset(table, e) + SectionEntrySize <= |linked|
    requires EntryMatch(original, linked, table, e).Some? && w.offset == VirtualSizeOffset(table, e)
    ensures VirtualSizeTarget(original, linked, table, count, w)
  {
    assert Matched(original, linked, table, e);
  }

  /** A property every write of `ws` has, and `w` has, every write of `[w] + ws` has. */
  lemma PrependAll(p: Write -> bool, w: Write, ws: seq<Write>)
    requires p(w)
    requires forall a :: 0 <= a < |ws| ==> p(ws[a])
    ensures forall a :: 0 <= a < |[w] + ws| ==> p(([w] + ws)[a])
  {
    forall a | 0 <= a < |[w] + ws|
      ensures p(([w] + ws)[a])
    {
      if a > 0 {
        assert ([w] + ws)[a] == ws[a - 1];
      }
    }
  }

  /** Every entry from `e` on that matches an original section has a decoded
      name, entry by entry as the walk visits them. */
  ghost predicate MatchedNamesDecode(original: seq<Section>, linked: seq<Byte>, table: nat, entries: seq<Section>, e: nat)
    decreases |entries| - e
  {
    e >= |entries|
    || ((Matched(original, linked, table, e) ==> entries[e].name.Some?) && MatchedNamesDecode(original, linked, table, entries, e + 1))
  }

  /** The entry-by-entry test is the statement about every matched entry. */
  lemma {:induction false} MatchedNamesDecodeAll(original: seq<Section>, linked: seq<Byte>, table: nat, entries: seq<Section>, e: nat)
    ensures MatchedNamesDecode(original, linked, table, entries, e) <==>
      forall t :: e <= t < |entries| && Matched(original, linked, table, t) ==> entries[t].name.Some?
    decreases |entries| - e
  {
    if e < |entries| {
      MatchedNamesDecodeAll(original, linked, table, entries, e + 1);
    }
  }

  /** The walk succeeds exactly when the last entry fits in the file and every
      matched entry's name decodes; otherwise it names the first entry that
      fails either test, every entry before it having passed both. */
  lemma {:induction false} SectionWritesOutcome(original: seq<Section>, linked: seq<Byte>, table: nat, entries: seq<Section>, e: nat)
    ensures SectionWrites(original, linked, table, entries, e).Success? <==>
      && (e < |entries| ==> EntryOffset(table, |entries|) <= |linked|)
      && MatchedNamesDecode(original, linked, table, entries, e)
    ensures var r := SectionWrites(original, linked, table, entries, e);
      r.Failure? ==>
        && (e < r.error.entry ==> EntryOffset(table, r.error.entry) <= |linked|)
        && (forall t :: e <= t < r.error.entry && Matched(original, linked, table, t) ==> entries[t].name.Some?)
        && (r.error.SectionTableTruncated? ==> EntryOffset(table, r.error.entry) + SectionEntrySize > |linked|)
        && (r.error.EntryNameUndecodable? ==>
              Matched(original, linked, table, r.error.entry) && entries[r.error.entry].name.None?)
    decreases |entries| - e
  {
    if e < |entries| && EntryOffset(table, e) + SectionEntrySize <= |linked| {
      if EntryMatch(original, linked, table, e).Some? && entries[e].name.None? {
        assert Matched(original, linked, table, e);
      } else {
        SectionWritesOutcome(original, linked, table, entries, e + 1);
      }
    }
  }

  /** Entry `e` passes the walk's checks: it fits, and a match has a decoded name. */
  predicate EntryPasses(original: seq<Section>, linked: seq<Byte>, table: nat, entries: seq<Section>, e: nat)
    requires e < |entries|
  {
    && EntryOffset(table, e) + SectionEntrySize <= |linked|
    && !(EntryMatch(original, linked, table, e).Some? && entries[e].name.None?)
  }

  /** The planned writes ascend, lie past entry `e`'s field start and inside the file. */
  lemma {:induction false} SectionWritesBounds(original: seq<Section>, linked: seq<Byte>, table: nat, entries: seq<Section>, e: nat)
    ensures var r := SectionWrites(original, linked, table, entries, e);
      r.Success? ==> Ascending(r.value) && Within(r.value, VirtualSizeOffset(table, e), |linked|)
    decreases |entries| - e
  {
    if e < |entries| && EntryPasses(original, linked, table, entries, e) {
      SectionWritesBounds(original, linked, table, entries, e + 1);
      var rest := SectionWrites(original, linked, table, entries, e + 1);
      if rest.Success? {
        WithinWeaken(rest.value, VirtualSizeOffset(table, e + 1), |linked|, VirtualSizeOffset(table, e), |linked|);
        if EntryMatch(original, linked, table, e).Some? {
          var w := Write(VirtualSizeOffset(table, e), MatchedSize(original, linked, table, e));
          PrependWrite(w, rest.value, VirtualSizeOffset(table, e), |linked|);
          assert SectionWrites(original, linked, table, entries, e) == Success([w] + rest.value);
        }
      }
    }
  }

  /** Every planned write is the VirtualSize field of a matched entry. */
  lemma {:induction false} SectionWritesTargets(original: seq<Section>, linked: seq<Byte>, table: nat, entries: seq<Section>, e: nat)
    ensures var r := SectionWrites(original, linked, table, entries, e);
      r.Success? ==> forall a :: 0 <= a < |r.value| ==> VirtualSizeTarget(original, linked, table, |entries|, r.value[a])
    decreases |entries| - e
  {
    if e < |entries| && EntryPasses(original, linked, table, entries, e) {
      SectionWritesTargets(original, linked, table, entries, e + 1);
      var rest := SectionWrites(original, linked, table, entries, e + 1);
      if rest.Success? {
        var ws := rest.value;
        assert forall a :: 0 <= a < |ws| ==> VirtualSizeTarget(original, linked, table, |entries|, ws[a]);
        if EntryMatch(original, linked, table, e).Some? {
          var w := Write(VirtualSizeOffset(table, e), MatchedSize(original, linked, table, e));
          TargetOfMatched(original, linked, table, |entries|, e, w);
          PrependAll(x => VirtualSizeTarget(original, linked, table, |entries|, x), w, ws);
          assert SectionWrites(original, linked, table, entries, e) == Success([w] + ws);
        } else {
          assert SectionWrites(original, linked, table, entries, e) == Success(ws);
        }
      }
    }
  }

  /** Every matched entry from `e` on gets its original virtual size planned. */
  lemma {:induction false} SectionWritesCover(original: seq<Section>, linked: seq<Byte>, table: nat, entries: seq<Section>, e: nat)
    ensures var r := SectionWrites(original, linked, table, entries, e);
      r.Success? ==> forall t :: e <= t < |entries| && Matched(original, linked, table, t) ==>
        Write(VirtualSizeOffset(table, t), MatchedSize(original, linked, table, t)) in r.value
    decreases |entries| - e
  {
    if e < |entries| && EntryPasses(original, linked, table, entries, e) {
      SectionWritesCover(original, linked, table, entries, e + 1);
    }
  }

  // ---------------------------------------------------------------- data directories

  /** Write `w` targets one half of a directory slot the original has. */
  ghost predicate DirectoryTarget(dirs: Option<DataDirectories>, table: nat, w: Write)
    requires DataDirectoryArraySize <= table
  {
    exists s :: 0 <= s < PatchedDirectorySlots && Slot(dirs, s).Some?
      && (w.offset == DirectoryOffset(table, s) || w.offset == DirectoryOffset(table, s) + 4)
  }

  /** The writes for one directory slot: its virtual address then its size
      when the original has that directory, nothing otherwise. */
  function SlotWrites(dirs: Option<DataDirectories>, table: nat, slot: nat, len: nat): (r: Result<seq<Write>, PatchError>)
    requires DataDirectoryArraySize <= table && slot < PatchedDirectorySlots
    ensures r.Success? <==> Slot(dirs, slot).None? || DirectoryOffset(table, slot) + DataDirectoryEntrySize <= len
    ensures r.Failure? ==> r.error == DirectoryOutOfFile(slot)
    ensures r.Success? && Slot(dirs, slot).Some? ==>
      && Write(DirectoryOffset(table, slot), Slot(dirs, slot).value.virtualAddress) in r.value
      && Write(DirectoryOffset(table, slot) + 4, Slot(dirs, slot).value.size) in r.value
  {
    match Slot(dirs, slot)
    case None => Success([])
    case Some(d) =>
      var off := DirectoryOffset(table, slot);
      if off + DataDirectoryEntrySize > len then Failure(DirectoryOutOfFile(slot))
      else Success([Write(off, d.virtualAddress), Write(off + 4, d.size)])
  }

  /** A slot's writes ascend inside the slot and the file, and aim at the slot. */
  lemma SlotWritesShape(dirs: Option<DataDirectories>, table: nat, slot: nat, len: nat)
    requires DataDirectoryArraySize <= table && slot < PatchedDirectorySlots
    ensures var r := SlotWrites(dirs, table, slot, len);
      r.Success? ==>
        && Ascending(r.value)
        && Within(r.value, DirectoryOffset(table, slot), DirectoryOffset(table, slot) + DataDirectoryEntrySize)
        && Within(r.value, 0, len)
        && (forall a :: 0 <= a < |r.value| ==> DirectoryTarget(dirs, table, r.value[a]))
  {
    if SlotWrites(dirs, table, slot, len).Success? && Slot(dirs, slot).Some? {
      var d := Slot(dirs, slot).value;
      var off := DirectoryOffset(table, slot);
      assert DirectoryTarget(dirs, table, Write(off, d.virtualAddress));
      assert DirectoryTarget(dirs, table, Write(off + 4, d.size));
    }
  }

  /** Export, import and resource slots in turn, each at its fixed offset
      whether or not the one before it was written. */
  function DirectoryWrites(dirs: Option<DataDirectories>, table: nat, len: nat): (r: Result<seq<Write>, PatchError>)
    requires DataDirectoryArraySize <= table
  {
    var exportWrites :- SlotWrites(dirs, table, 0, len);
    var importWrites :- SlotWrites(dirs, table, 1, len);
    var resourceWrites :- SlotWrites(dirs, table, 2, len);
    Success(exportWrites + importWrites + resourceWrites)
  }

  /** Two ascending lists in adjacent ranges join into one. */
  lemma JoinWrites(xs: seq<Write>, ys: seq<Write>, lo: int, mid: int, hi: int)
    requires lo <= mid <= hi
    requires Ascending(xs) && Ascending(ys) && Within(xs, lo, mid) && Within(ys, mid, hi)
    ensures Ascending(xs + ys) && Within(xs + ys, lo, hi)
  {
    assert forall a :: |xs| <= a < |xs + ys| ==> (xs + ys)[a] == ys[a - |xs|];
  }

  lemma WithinJoin(xs: seq<Write>, ys: seq<Write>, lo: int, hi: int)
    requires Within(xs, lo, hi) && Within(ys, lo, hi)
    ensures Within(xs + ys, lo, hi)
  {
    assert forall a :: |xs| <= a < |xs + ys| ==> (xs + ys)[a] == ys[a - |xs|];
  }

  lemma TargetsJoin(dirs: Option<DataDirectories>, table: nat, xs: seq<Write>, ys: seq<Write>)
    requires DataDirectoryArraySize <= table
    requires forall a :: 0 <= a < |xs| ==> DirectoryTarget(dirs, table, xs[a])
    requires forall a :: 0 <= a < |ys| ==> DirectoryTarget(dirs, table, ys[a])
    ensures forall a :: 0 <= a < |xs + ys| ==> DirectoryTarget(dirs, table, (xs + ys)[a])
  {
    assert forall a :: |xs| <= a < |xs + ys| ==> (xs + ys)[a] == ys[a - |xs|];
  }

  /** The directory walk fails exactly at the first present slot that runs past the file. */
  lemma DirectoryWritesOutcome(dirs: Option<DataDirectories>, table: nat, len: nat)
    requires DataDirectoryArraySize <= table
    ensures DirectoryWrites(dirs, table, len).Success? <==> DirectoriesFit(dirs, table, len)
    ensures var r := DirectoryWrites(dirs, table, len);
      r.Failure? ==>
        && r.error.DirectoryOutOfFile?
        && r.error.slot < PatchedDirectorySlots
        && Slot(dirs, r.error.slot).Some?
        && DirectoryOffset(table, r.error.slot) + DataDirectoryEntrySize > len
  {
    if !DirectoriesFit(dirs, table, len) {
      var s :| 0 <= s < PatchedDirectorySlots && Slot(dirs, s).Some? && DirectoryOffset(table, s) + DataDirectoryEntrySize > len;
      assert SlotWrites(dirs, table, s, len).Failure?;
    }
  }

  /** A successful directory walk is the three slots' writes in order. */
  lemma DirectoryWritesParts(dirs: Option<DataDirectories>, table: nat, len: nat) returns (x: seq<Write>, y: seq<Write>, z: seq<Write>)
    requires DataDirectoryArraySize <= table
    requires DirectoryWrites(dirs, table, len).Success?
    ensures SlotWrites(dirs, table, 0, len) == Success(x)
    ensures SlotWrites(dirs, table, 1, len) == Success(y)
    ensures SlotWrites(dirs, table, 2, len) == Success(z)
    ensures DirectoryWrites(dirs, table, len).value == x + y + z
  {
    x := SlotWrites(dirs, table, 0, len).value;
    y := SlotWrites(dirs, table, 1, len).value;
    z := SlotWrites(dirs, table, 2, len).value;
  }

  /** The directory writes ascend within the three slots and within the file. */
  lemma DirectoryWritesBounds(dirs: Option<DataDirectories>, table: nat, len: nat)
    requires DataDirectoryArraySize <= table
    ensures var r := DirectoryWrites(dirs, table, len);
      r.Success? ==>
        && Ascending(r.value)
        && Within(r.value, DirectoryOffset(table, 0), DirectoryOffset(table, PatchedDirectorySlots))
        && Within(r.value, 0, len)
  {
    if DirectoryWrites(dirs, table, len).Success? {
      var x, y, z := DirectoryWritesParts(dirs, table, len);
      SlotWritesShape(dirs, table, 0, len);
      SlotWritesShape(dirs, table, 1, len);
      SlotWritesShape(dirs, table, 2, len);
      JoinWrites(x, y, DirectoryOffset(table, 0), DirectoryOffset(table, 1), DirectoryOffset(table, 2));
      JoinWrites(x + y, z, DirectoryOffset(table, 0), DirectoryOffset(table, 2), DirectoryOffset(table, 3));
      WithinJoin(x, y, 0, len);
      WithinJoin(x + y, z, 0, len);
    }
  }

  /** Each directory write aims at a present slot. */
  lemma DirectoryWritesTargets(dirs: Option<DataDirectories>, table: nat, len: nat)
    requires DataDirectoryArraySize <= table
    ensures var r := DirectoryWrites(dirs, table, len);
      r.Success? ==> forall a :: 0 <= a < |r.value| ==> DirectoryTarget(dirs, table, r.value[a])
  {
    if DirectoryWrites(dirs, table, len).Success? {
      var x, y, z := DirectoryWritesParts(dirs, table, len);
      SlotWritesShape(dirs, table, 0, len);
      SlotWritesShape(dirs, table, 1, len);
      SlotWritesShape(dirs, table, 2, len);
      TargetsJoin(dirs, table, x, y);
      TargetsJoin(dirs, table, x + y, z);
    }
  }

  /** Every present slot gets both halves. */
  lemma DirectoryWritesCover(dirs: Option<DataDirectories>, table: nat, len: nat)
    requires DataDirectoryArraySize <= table
    ensures var r := DirectoryWrites(dirs, table, len);
      r.Success? ==> forall s :: 0 <= s < PatchedDirectorySlots && Slot(dirs, s).Some? ==>
        && Write(DirectoryOffset(table, s), Slot(dirs, s).value.virtualAddress) in r.value
        && Write(DirectoryOffset(table, s) + 4, Slot(dirs, s).value.size) in r.value
  {
    if DirectoryWrites(dirs, table, len).Success? {
      var x, y, z := DirectoryWritesParts(dirs, table, len);
      forall s | 0 <= s < PatchedDirectorySlots && Slot(dirs, s).Some?
        ensures Write(DirectoryOffset(table, s), Slot(dirs, s).value.virtualAddress) in x + y + z
        ensures Write(DirectoryOffset(table, s) + 4, Slot(dirs, s).value.size) in x + y + z
      {
        if s == 0 {
          assert SlotWrites(dirs, table, s, len) == Success(x);
        } else if s == 1 {
          assert SlotWrites(dirs, table, s, len) == Success(y);
        } else {
          assert SlotWrites(dirs, table, s, len) == Success(z);
        }
      }
    }
  }

  // ---------------------------------------------------------------- the patch

  /** Every entry the walk visits lies in the file. */
  ghost predicate SectionTableFits(linked: seq<Byte>, table: nat, count: nat) {
    count == 0 || EntryOffset(table, count) <= |linked|
  }

  /** Every directory slot the original has lies in the file. */
  ghost predicate DirectoriesFit(dirs: Option<DataDirectories>, table: nat, len: nat)
    requires DataDirectoryArraySize <= table
  {
    forall s :: 0 <= s < PatchedDirectorySlots && Slot(dirs, s).Some? ==> DirectoryOffset(table, s) + DataDirectoryEntrySize <= len
  }

  /** The conditions under which patching the linked image completes. */
  ghost predicate Patchable(original: PeImage, linkedPe: PeImage, linked: seq<Byte>) {
    && SignaturePointerOffset + 4 <= |linked|
    && var table := TableOffset(linked, linkedPe.sizeOfOptionalHeader);
    && SectionTableFits(linked, table, |linkedPe.sections|)
    && MatchedNamesDecode(original.sections, linked, table, linkedPe.sections, 0)
    && DataDirectoryArraySize <= table
    && DirectoriesFit(original.directories, table, |linked|)
  }

  /** The writes the patch performs, in source order: VirtualSize fields of
      the linked section table, then the three directory slots, which sit
      in the last 0x80 bytes before the table. Offsets come from the linked
      file; values come from the original image. */
  function PatchWrites(original: PeImage, linkedPe: PeImage, linked: seq<Byte>): (r: Result<seq<Write>, PatchError>)
    ensures r.Success? <==> Patchable(original, linkedPe, linked)
    ensures r.Success? ==> forall a :: 0 <= a < |r.value| ==> r.value[a].offset + 4 <= |linked|
    ensures r.Success? ==> Disjoint(r.value)
  {
    match SignaturePointer(linked)
    case Failure(e) => Failure(e)
    case Success(_) =>
      var table := TableOffset(linked, linkedPe.sizeOfOptionalHeader);
      SectionWritesOutcome(original.sections, linked, table, linkedPe.sections, 0);
      match SectionWrites(original.sections, linked, table, linkedPe.sections, 0)
      case Failure(e) => Failure(e)
      case Success(sw) =>
        if table < DataDirectoryArraySize then Failure(DirectoryOffsetUnderflow)
        else
          DirectoryWritesOutcome(original.directories, table, |linked|);
          match DirectoryWrites(original.directories, table, |linked|)
          case Failure(e) => Failure(e)
          case Success(dw) =>
            SectionWritesBounds(original.sections, linked, table, linkedPe.sections, 0);
            DirectoryWritesBounds(original.directories, table, |linked|);
            DisjointJoin(sw, dw);
            Success(sw + dw)
  }

  /** Patches the linked file: same length, and it succeeds exactly when
      the signature pointer, every visited table entry and every present
      directory slot lie in the file, every matched entry's name decodes,
      and the table starts at least 0x80 bytes in. */
  function Patch(original: PeImage, linkedPe: PeImage, linked: seq<Byte>): (r: Result<seq<Byte>, PatchError>)
    ensures r.Success? <==> Patchable(original, linkedPe, linked)
    ensures r.Success? ==> |r.value| == |linked|
  {
    match PatchWrites(original, linkedPe, linked)
    case Failure(e) => Failure(e)
    case Success(ws) => Success(ApplyWrites(linked, ws))
  }

  /** The failures, each at the step of the source that raises it. */
  lemma PatchRejects(original: PeImage, linkedPe: PeImage, linked: seq<Byte>)
    ensures var r := Patch(original, linkedPe, linked);
      r.Failure? && r.error.SignaturePointerTruncated? <==> |linked| < SignaturePointerOffset + 4
    ensures var r := Patch(original, linkedPe, linked);
      r.Failure? && r.error.SectionTableTruncated? ==>
        && SignaturePointerOffset + 4 <= |linked|
        && r.error.entry < |linkedPe.sections|
        && EntryOffset(TableOffset(linked, linkedPe.sizeOfOptionalHeader), r.error.entry) + SectionEntrySize > |linked|
    ensures var r := Patch(original, linkedPe, linked);
      r.Failure? && r.error.EntryNameUndecodable? ==>
        && SignaturePointerOffset + 4 <= |linked|
        && var table := TableOffset(linked, linkedPe.sizeOfOptionalHeader);
        && r.error.entry < |linkedPe.sections|
        && Matched(original.sections, linked, table, r.error.entry)
        && linkedPe.sections[r.error.entry].name.None?
        && forall t :: 0 <= t < r.error.entry && Matched(original.sections, linked, table, t) ==> linkedPe.sections[t].name.Some?
    ensures var r := Patch(original, linkedPe, linked);
      r.Failure? && r.error.DirectoryOffsetUnderflow? ==>
        && SignaturePointerOffset + 4 <= |linked|
        && SectionTableFits(linked, TableOffset(linked, linkedPe.sizeOfOptionalHeader), |linkedPe.sections|)
        && MatchedNamesDecode(original.sections, linked, TableOffset(linked, linkedPe.sizeOfOptionalHeader), linkedPe.sections, 0)
        && TableOffset(linked, linkedPe.sizeOfOptionalHeader) < DataDirectoryArraySize
    ensures var r := Patch(original, linkedPe, linked);
      r.Failure? && r.error.DirectoryOutOfFile? ==>
        && SignaturePointerOffset + 4 <= |linked|
        && var table := TableOffset(linked, linkedPe.sizeOfOptionalHeader);
        && SectionTableFits(linked, table, |linkedPe.sections|)
        && MatchedNamesDecode(original.sections, linked, table, linkedPe.sections, 0)
        && DataDirectoryArraySize <= table
        && r.error.slot < PatchedDirectorySlots
        && Slot(original.directories, r.error.slot).Some?
        && DirectoryOffset(table, r.error.slot) + DataDirectoryEntrySize > |linked|
  {
    if SignaturePointerOffset + 4 <= |linked| {
      var table := TableOffset(linked, linkedPe.sizeOfOptionalHeader);
      SectionWritesOutcome(original.sections, linked, table, linkedPe.sections, 0);
      if table >= DataDirectoryArraySize {
        DirectoryWritesOutcome(original.directories, table, |linked|);
      }
    }
  }

  /** The plan of a patchable image, split into its two parts with what is known of each. */
  lemma PlanParts(original: PeImage, linkedPe: PeImage, linked: seq<Byte>) returns (table: nat, sw: seq<Write>, dw: seq<Write>)
    requires Patchable(original, linkedPe, linked)
    ensures table == TableOffset(linked, linkedPe.sizeOfOptionalHeader) && DataDirectoryArraySize <= table
    ensures PatchWrites(original, linkedPe, linked) == Success(sw + dw)
    ensures forall a :: 0 <= a < |sw + dw| ==> (sw + dw)[a].offset + 4 <= |linked|
    ensures Disjoint(sw + dw)
    ensures Patch(original, linkedPe, linked) == Success(ApplyWrites(linked, sw + dw))
    ensures forall a :: 0 <= a < |sw| ==> VirtualSizeOffset(table, 0) <= sw[a].offset
    ensures forall a :: 0 <= a < |sw| ==> VirtualSizeTarget(original.sections, linked, table, |linkedPe.sections|, sw[a])
    ensures forall t :: 0 <= t < |linkedPe.sections| && Matched(original.sections, linked, table, t) ==>
      Write(VirtualSizeOffset(table, t), MatchedSize(original.sections, linked, table, t)) in sw
    ensures forall a :: 0 <= a < |dw| ==> dw[a].offset + 4 <= VirtualSizeOffset(table, 0)
    ensures forall a :: 0 <= a < |dw| ==>
      && DirectoryOffset(table, 0) <= dw[a].offset
      && dw[a].offset + 4 <= DirectoryOffset(table, PatchedDirectorySlots)
      && DirectoryTarget(original.directories, table, dw[a])
    ensures forall s :: 0 <= s < PatchedDirectorySlots && Slot(original.directories, s).Some? ==>
      && Write(DirectoryOffset(table, s), Slot(original.directories, s).value.virtualAddress) in dw
      && Write(DirectoryOffset(table, s) + 4, Slot(original.directories, s).value.size) in dw
  {
    table := TableOffset(linked, linkedPe.sizeOfOptionalHeader);
    SectionWritesOutcome(original.sections, linked, table, linkedPe.sections, 0);
    DirectoryWritesOutcome(original.directories, table, |linked|);
    sw := SectionWrites(original.sections, linked, table, linkedPe.sections, 0).value;
    dw := DirectoryWrites(original.directories, table, |linked|).value;
    SectionWritesBounds(original.sections, linked, table, linkedPe.sections, 0);
    SectionWritesTargets(original.sections, linked, table, linkedPe.sections, 0);
    SectionWritesCover(original.sections, linked, table, linkedPe.sections, 0);
    DirectoryWritesBounds(original.directories, table, |linked|);
    DirectoryWritesTargets(original.directories, table, |linked|);
    DirectoryWritesCover(original.directories, table, |linked|);
  }

  /** The write at index `a` of `ws` lands as a whole when `ws` has no overlaps. */
  lemma StoredAt(buf: seq<Byte>, ws: seq<Write>, w: Write)
    requires forall a :: 0 <= a < |ws| ==> ws[a].offset + 4 <= |buf|
    requires Disjoint(ws) && w in ws
    ensures ApplyWrites(buf, ws)[w.offset..w.offset + 4] == LeBytes(w.value)
  {
    var a :| 0 <= a < |ws| && ws[a] == w;
    ApplyWritesStores(buf, ws, a);
  }

  /** Bytes `lo..hi` that no write touches keep the buffer's values. */
  lemma KeptRange(buf: seq<Byte>, ws: seq<Write>, lo: nat, hi: nat)
    requires forall a :: 0 <= a < |ws| ==> ws[a].offset + 4 <= |buf|
    requires lo <= hi <= |buf|
    requires forall a :: 0 <= a < |ws| ==> ws[a].offset + 4 <= lo || hi <= ws[a].offset
    ensures ApplyWrites(buf, ws)[lo..hi] == buf[lo..hi]
  {
    forall p | lo <= p < hi
      ensures ApplyWrites(buf, ws)[p] == buf[p]
    {
      ApplyWritesKeeps(buf, ws, p);
    }
  }

  /** Two distinct entries' VirtualSize fields do not overlap. */
  lemma FieldsApart(table: nat, e: nat, e': nat)
    requires e != e'
    ensures VirtualSizeOffset(table, e) + 4 <= VirtualSizeOffset(table, e') || VirtualSizeOffset(table, e') + 4 <= VirtualSizeOffset(table, e)
  {
    if e < e' {
      assert SectionEntrySize * e + SectionEntrySize <= SectionEntrySize * e';
    } else {
      assert SectionEntrySize * e' + SectionEntrySize <= SectionEntrySize * e;
    }
  }

  /** No planned write reaches an unmatched entry's VirtualSize field. */
  lemma UnmatchedFieldClear(original: seq<Section>, linked: seq<Byte>, table: nat, count: nat, e: nat, sw: seq<Write>, dw: seq<Write>)
    requires !Matched(original, linked, table, e)
    requires forall a :: 0 <= a < |sw| ==> VirtualSizeTarget(original, linked, table, count, sw[a])
    requires forall a :: 0 <= a < |dw| ==> dw[a].offset + 4 <= VirtualSizeOffset(table, 0)
    ensures forall a :: 0 <= a < |sw + dw| ==>
      (sw + dw)[a].offset + 4 <= VirtualSizeOffset(table, e) || VirtualSizeOffset(table, e) + 4 <= (sw + dw)[a].offset
  {
    forall a | 0 <= a < |sw + dw|
      ensures (sw + dw)[a].offset + 4 <= VirtualSizeOffset(table, e) || VirtualSizeOffset(table, e) + 4 <= (sw + dw)[a].offset
    {
      if a < |sw| {
        var e' :| 0 <= e' < count && Matched(original, linked, table, e') && sw[a].offset == VirtualSizeOffset(table, e');
        FieldsApart(table, e, e');
        assert (sw + dw)[a] == sw[a];
      } else {
        assert (sw + dw)[a] == dw[a - |sw|];
      }
    }
  }

  /** What the VirtualSize fields depend on in a plan `sw + dw`: all writes
      in the file and apart, every section write aimed at a matched entry,
      every matched entry written, and the directory writes below the table. */
  ghost predicate SectionsPlanned(original: seq<Section>, linked: seq<Byte>, table: nat, count: nat, sw: seq<Write>, dw: seq<Write>) {
    && (forall a :: 0 <= a < |sw + dw| ==> (sw + dw)[a].offset + 4 <= |linked|)
    && Disjoint(sw + dw)
    && (forall a :: 0 <= a < |sw| ==> VirtualSizeTarget(original, linked, table, count, sw[a]))
    && (forall t :: 0 <= t < count && Matched(original, linked, table, t) ==>
          Write(VirtualSizeOffset(table, t), MatchedSize(original, linked, table, t)) in sw)
    && (forall a :: 0 <= a < |dw| ==> dw[a].offset + 4 <= VirtualSizeOffset(table, 0))
  }

  /** The VirtualSize field of entry `e` after the planned writes, from what is known of the plan. */
  lemma VirtualSizeFieldAfter(original: seq<Section>, linked: seq<Byte>, table: nat, count: nat, e: nat, sw: seq<Write>, dw: seq<Write>)
    requires e < count && EntryOffset(table, e) + SectionEntrySize <= |linked|
    requires SectionsPlanned(original, linked, table, count, sw, dw)
    ensures var at := VirtualSizeOffset(table, e);
      Matched(original, linked, table, e) ==> ApplyWrites(linked, sw + dw)[at..at + 4] == LeBytes(MatchedSize(original, linked, table, e))
    ensures var at := VirtualSizeOffset(table, e);
      !Matched(original, linked, table, e) ==> ApplyWrites(linked, sw + dw)[at..at + 4] == linked[at..at + 4]
  {
    var at := VirtualSizeOffset(table, e);
    if Matched(original, linked, table, e) {
      StoredAt(linked, sw + dw, Write(at, MatchedSize(original, linked, table, e)));
    } else {
      UnmatchedFieldClear(original, linked, table, count, e, sw, dw);
      KeptRange(linked, sw + dw, at, at + 4);
    }
  }

  /** The section half of a successful patch's plan, with what the VirtualSize fields depend on. */
  lemma SectionPlan(original: PeImage, linkedPe: PeImage, linked: seq<Byte>, patched: seq<Byte>) returns (table: nat, sw: seq<Write>, dw: seq<Write>)
    requires Patch(original, linkedPe, linked) == Success(patched)
    ensures table == TableOffset(linked, linkedPe.sizeOfOptionalHeader)
    ensures SectionTableFits(linked, table, |linkedPe.sections|)
    ensures SectionsPlanned(original.sections, linked, table, |linkedPe.sections|, sw, dw)
    ensures patched == ApplyWrites(linked, sw + dw)
  {
    table, sw, dw := PlanParts(original, linkedPe, linked);
  }

  /** After patching, each visited entry's VirtualSize field holds the
      virtual size of the first original section with the same 8-byte name,
      and is left as linked when no original section has that name. */
  lemma PatchVirtualSizes(original: PeImage, linkedPe: PeImage, linked: seq<Byte>, patched: seq<Byte>, e: nat)
    requires Patch(original, linkedPe, linked) == Success(patched)
    requires e < |linkedPe.sections|
    ensures var table := TableOffset(linked, linkedPe.sizeOfOptionalHeader);
      && EntryOffset(table, e) + SectionEntrySize <= |linked|
      && var at := VirtualSizeOffset(table, e);
      && (match EntryMatch(original.sections, linked, table, e)
          case Some(i) => patched[at..at + 4] == LeBytes(original.sections[i].virtualSize)
          case None => patched[at..at + 4] == linked[at..at + 4])
  {
    var table, sw, dw := SectionPlan(original, linkedPe, linked, patched);
    PlannedVirtualSize(original.sections, linked, table, |linkedPe.sections|, e, sw, dw, patched);
  }

  /** The VirtualSize field of a visited entry after a section plan, at an
      entry inside the table. */
  lemma PlannedVirtualSize(original: seq<Section>, linked: seq<Byte>, table: nat, count: nat, e: nat, sw: seq<Write>, dw: seq<Write>, patched: seq<Byte>)
    requires e < count && SectionTableFits(linked, table, count)
    requires SectionsPlanned(original, linked, table, count, sw, dw)
    requires patched == ApplyWrites(linked, sw + dw)
    ensures && EntryOffset(table, e) + SectionEntrySize <= |linked|
      && var at := VirtualSizeOffset(table, e);
      && (match EntryMatch(original, linked, table, e)
          case Some(i) => patched[at..at + 4] == LeBytes(original[i].virtualSize)
          case None => patched[at..at + 4] == linked[at..at + 4])
  {
    assert EntryOffset(table, e) + SectionEntrySize <= EntryOffset(table, count);
    VirtualSizeFieldAfter(original, linked, table, count, e, sw, dw);
    var at := VirtualSizeOffset(table, e);
    match EntryMatch(original, linked, table, e)
    case Some(i) =>
      assert Matched(original, linked, table, e);
      assert ApplyWrites(linked, sw + dw)[at..at + 4] == LeBytes(original[i].virtualSize);
    case None =>
      assert ApplyWrites(linked, sw + dw)[at..at + 4] == linked[at..at + 4];
  }

  /** What the directory slots depend on in a plan `sw + dw`: all writes in
      the file and apart, and every present slot written. */
  ghost predicate DirectoriesPlanned(dirs: Option<DataDirectories>, linked: seq<Byte>, table: nat, sw: seq<Write>, dw: seq<Write>)
    requires DataDirectoryArraySize <= table
  {
    && (forall a :: 0 <= a < |sw + dw| ==> (sw + dw)[a].offset + 4 <= |linked|)
    && Disjoint(sw + dw)
    && (forall s :: 0 <= s < PatchedDirectorySlots && Slot(dirs, s).Some? ==>
          && Write(DirectoryOffset(table, s), Slot(dirs, s).value.virtualAddress) in dw
          && Write(DirectoryOffset(table, s) + 4, Slot(dirs, s).value.size) in dw)
  }

  /** The directory half of a successful patch's plan. */
  lemma DirectoryPlan(original: PeImage, linkedPe: PeImage, linked: seq<Byte>, patched: seq<Byte>) returns (table: nat, sw: seq<Write>, dw: seq<Write>)
    requires Patch(original, linkedPe, linked) == Success(patched)
    ensures table == TableOffset(linked, linkedPe.sizeOfOptionalHeader) && DataDirectoryArraySize <= table
    ensures DirectoriesFit(original.directories, table, |linked|)
    ensures DirectoriesPlanned(original.directories, linked, table, sw, dw)
    ensures forall a :: 0 <= a < |sw + dw| ==> (sw + dw)[a].offset + 4 <= |linked|
    ensures patched == ApplyWrites(linked, sw + dw)
  {
    table, sw, dw := PlanParts(original, linkedPe, linked);
  }

  /** After patching, each directory slot the original has holds the
      original's virtual address and size, little-endian, in the linked
      file's slot. */
  lemma PatchDirectories(original: PeImage, linkedPe: PeImage, linked: seq<Byte>, patched: seq<Byte>, s: nat)
    requires Patch(original, linkedPe, linked) == Success(patched)
    requires s < PatchedDirectorySlots && Slot(original.directories, s).Some?
    ensures var table := TableOffset(linked, linkedPe.sizeOfOptionalHeader);
      && DataDirectoryArraySize <= table
      && var at := DirectoryOffset(table, s);
      && at + DataDirectoryEntrySize <= |linked|
      && patched[at..at + 4] == LeBytes(Slot(original.directories, s).value.virtualAddress)
      && patched[at + 4..at + 8] == LeBytes(Slot(original.directories, s).value.size)
      && LeValue(patched[at..at + 4]) == Slot(original.directories, s).value.virtualAddress
      && LeValue(patched[at + 4..at + 8]) == Slot(original.directories, s).value.size
  {
    var table, sw, dw := DirectoryPlan(original, linkedPe, linked, patched);
    var d := Slot(original.directories, s).value;
    var at := DirectoryOffset(table, s);
    DirectoryFieldAfter(original.directories, linked, table, s, sw, dw);
    assert ApplyWrites(linked, sw + dw)[at..at + 4] == LeBytes(d.virtualAddress);
    assert ApplyWrites(linked, sw + dw)[at + 4..at + 8] == LeBytes(d.size);
    LeValueOfBytes(d.virtualAddress);
    LeValueOfBytes(d.size);
  }

  /** A present slot after the planned writes, from what is known of the plan. */
  lemma DirectoryFieldAfter(dirs: Option<DataDirectories>, linked: seq<Byte>, table: nat, s: nat, sw: seq<Write>, dw: seq<Write>)
    requires DataDirectoryArraySize <= table
    requires s < PatchedDirectorySlots && Slot(dirs, s).Some?
    requires DirectoryOffset(table, s) + DataDirectoryEntrySize <= |linked|
    requires DirectoriesPlanned(dirs, linked, table, sw, dw)
    ensures var at := DirectoryOffset(table, s);
      && ApplyWrites(linked, sw + dw)[at..at + 4] == LeBytes(Slot(dirs, s).value.virtualAddress)
      && ApplyWrites(linked, sw + dw)[at + 4..at + 8] == LeBytes(Slot(dirs, s).value.size)
  {
    var d := Slot(dirs, s).value;
    var at := DirectoryOffset(table, s);
    assert Write(at, d.virtualAddress) in sw + dw;
    assert Write(at + 4, d.size) in sw + dw;
    StoredAt(linked, sw + dw, Write(at, d.virtualAddress));
    StoredAt(linked, sw + dw, Write(at + 4, d.size));
  }

  /** Byte `p` lies in a field the patch rewrites: the VirtualSize field of a
      matched entry, or a slot the original has. */
  ghost predicate InPatchedField(original: seq<Section>, dirs: Option<DataDirectories>, linked: seq<Byte>, table: nat, count: nat, p: int) {
    || (exists e :: 0 <= e < count && Matched(original, linked, table, e)
          && VirtualSizeOffset(table, e) <= p < VirtualSizeOffset(table, e) + 4)
    || (DataDirectoryArraySize <= table
          && exists s :: 0 <= s < PatchedDirectorySlots && Slot(dirs, s).Some?
               && DirectoryOffset(table, s) <= p < DirectoryOffset(table, s) + DataDirectoryEntrySize)
  }

  /** Each write of the plan aims at a matched VirtualSize field or a present slot. */
  ghost predicate AllTargeted(original: seq<Section>, dirs: Option<DataDirectories>, linked: seq<Byte>, table: nat, count: nat, sw: seq<Write>, dw: seq<Write>)
    requires DataDirectoryArraySize <= table
  {
    && (forall a :: 0 <= a < |sw| ==> VirtualSizeTarget(original, linked, table, count, sw[a]))
    && (forall a :: 0 <= a < |dw| ==> DirectoryTarget(dirs, table, dw[a]))
  }

  /** No write of a targeted plan touches a byte outside the patched fields. */
  lemma UnpatchedByteClear(original: seq<Section>, dirs: Option<DataDirectories>, linked: seq<Byte>, table: nat, count: nat, p: int, sw: seq<Write>, dw: seq<Write>)
    requires DataDirectoryArraySize <= table
    requires AllTargeted(original, dirs, linked, table, count, sw, dw)
    requires !InPatchedField(original, dirs, linked, table, count, p)
    ensures !Touches(sw + dw, p)
  {
    forall a | 0 <= a < |sw + dw|
      ensures (sw + dw)[a].offset + 4 <= p || p < (sw + dw)[a].offset
    {
      if a < |sw| {
        assert (sw + dw)[a] == sw[a];
        var e :| 0 <= e < count && Matched(original, linked, table, e) && sw[a].offset == VirtualSizeOffset(table, e);
        assert VirtualSizeOffset(table, e) <= p < VirtualSizeOffset(table, e) + 4 ==> InPatchedField(original, dirs, linked, table, count, p);
      } else {
        assert (sw + dw)[a] == dw[a - |sw|];
        var s :| 0 <= s < PatchedDirectorySlots && Slot(dirs, s).Some?
          && (dw[a - |sw|].offset == DirectoryOffset(table, s) || dw[a - |sw|].offset == DirectoryOffset(table, s) + 4);
        assert DirectoryOffset(table, s) <= p < DirectoryOffset(table, s) + DataDirectoryEntrySize ==> InPatchedField(original, dirs, linked, table, count, p);
      }
    }
  }

  /** The whole plan of a successful patch, with its targets. */
  lemma TargetedPlan(original: PeImage, linkedPe: PeImage, linked: seq<Byte>, patched: seq<Byte>) returns (table: nat, sw: seq<Write>, dw: seq<Write>)
    requires Patch(original, linkedPe, linked) == Success(patched)
    ensures table == TableOffset(linked, linkedPe.sizeOfOptionalHeader) && DataDirectoryArraySize <= table
    ensures AllTargeted(original.sections, original.directories, linked, table, |linkedPe.sections|, sw, dw)
    ensures forall a :: 0 <= a < |sw + dw| ==> (sw + dw)[a].offset + 4 <= |linked|
    ensures patched == ApplyWrites(linked, sw + dw)
  {
    table, sw, dw := PlanParts(original, linkedPe, linked);
  }

  /** The patch changes nothing but the fields it rewrites: every other byte
      of the linked file, including unmatched VirtualSize fields and absent
      slots, keeps its value. */
  lemma PatchKeepsRest(original: PeImage, linkedPe: PeImage, linked: seq<Byte>, patched: seq<Byte>, p: nat)
    requires Patch(original, linkedPe, linked) == Success(patched)
    requires p < |linked|
    requires !InPatchedField(original.sections, original.directories, linked, TableOffset(linked, linkedPe.sizeOfOptionalHeader), |linkedPe.sections|, p)
    ensures |patched| == |linked| && patched[p] == linked[p]
  {
    var table, sw, dw := TargetedPlan(original, linkedPe, linked, patched);
    UnpatchedByteClear(original.sections, original.directories, linked, table, |linkedPe.sections|, p, sw, dw);
    ApplyWritesKeeps(linked, sw + dw, p);
  }

  /** Reading a patched VirtualSize field back as a little-endian value
      yields the matching original section's virtual size. */
  lemma PatchedVirtualSizeReadsBack(original: PeImage, linkedPe: PeImage, linked: seq<Byte>, patched: seq<Byte>, e: nat)
    requires Patch(original, linkedPe, linked) == Success(patched)
    requires e < |linkedPe.sections|
    ensures var table := TableOffset(linked, linkedPe.sizeOfOptionalHeader);
      && EntryOffset(table, e) + SectionEntrySize <= |linked|
      && var at := VirtualSizeOffset(table, e);
      && var m := EntryMatch(original.sections, linked, table, e);
      && (m.Some? ==> LeValue(patched[at..at + 4]) == original.sections[m.value].virtualSize)
  {
    PatchVirtualSizes(original, linkedPe, linked, patched, e);
    var table := TableOffset(linked, linkedPe.sizeOfOptionalHeader);
    var m := EntryMatch(original.sections, linked, table, e);
    if m.Some? {
      LeValueOfBytes(original.sections[m.value].virtualSize);
    }
  }
}

=== FILE: pe.dfy ===
/** The layout of a PE image as the external parser supplies it: the
    section table entries and the header fields the pipeline reads. */
module Pe {
  import opened Wrappers
  import opened Bytes

  /** One section-table entry. `rawName` is the 8-byte name field as stored;
      `name` is its text as the parser decodes it, `None` when decoding fails. */
  datatype Section = Section(
    rawName: seq<Byte>,
    name: Option<string>,
    virtualAddress: U32,
    virtualSize: U32,
    pointerToRawData: U32,
    sizeOfRawData: U32)

  /** A virtual-address/size pair of the optional header's data directories. */
  datatype DataDirectory = DataDirectory(virtualAddress: U32, size: U32)

  /** The three data directories the header patcher restores (slots 0, 1, 2). */
  datatype DataDirectories = DataDirectories(
    exportTable: Option<DataDirectory>,
    importTable: Option<DataDirectory>,
    resourceTable: Option<DataDirectory>)

  /** A parsed image. `directories` is `None` when the image has no optional header. */
  datatype PeImage = PeImage(
    imageBase: nat,
    entry: nat,
    sizeOfOptionalHeader: nat,
    sections: seq<Section>,
    directories: Option<DataDirectories>)

  /** First file offset past the section's raw data. */
  function RawEnd(s: Section): nat {
    s.pointerToRawData + s.sizeOfRawData
  }

  predicate InRawRange(s: Section, p: int) {
    s.pointerToRawData <= p < RawEnd(s)
  }

  predicate RawRangeInFile(file: seq<Byte>, s: Section) {
    RawEnd(s) <= |file|
  }

  predicate RawRangesInFile(file: seq<Byte>, sections: seq<Section>) {
    forall i :: 0 <= i < |sections| ==> RawRangeInFile(file, sections[i])
  }

  /** The raw bytes of section `s` in `file`. */
  function RawData(file: seq<Byte>, s: Section): (r: seq<Byte>)
    requires RawRangeInFile(file, s)
    ensures |r| == s.sizeOfRawData
  {
    file[s.pointerToRawData..RawEnd(s)]
  }

  /** File offset `p` lies in the raw range of one of `sections[lo..hi]`. */
  ghost predicate CoveredBy(sections: seq<Section>, lo: nat, hi: nat, p: int)
    requires hi <= |sections|
  {
    exists i :: lo <= i < hi && InRawRange(sections[i], p)
  }

  /** File offset `p` lies in the raw range of some section. */
  ghost predicate Covered(sections: seq<Section>, p: int) {
    CoveredBy(sections, 0, |sections|, p)
  }

  lemma CoveredByExtend(sections: seq<Section>, lo: nat, hi: nat, p: int)
    requires lo <= hi < |sections|
    ensures CoveredBy(sections, lo, hi + 1, p) <==> CoveredBy(sections, lo, hi, p) || InRawRange(sections[hi], p)
  {
  }

  lemma CoveredByShrink(sections: seq<Section>, lo: nat, hi: nat, p: int)
    requires lo < hi <= |sections|
    ensures CoveredBy(sections, lo, hi, p) <==> InRawRange(sections[lo], p) || CoveredBy(sections, lo + 1, hi, p)
  {
  }

  /** No two sections share a raw name. */
  predicate DistinctRawNames(sections: seq<Section>) {
    forall i, j :: 0 <= i < j < |sections| ==> sections[i].rawName != sections[j].rawName
  }

  /** No two sections share a decoded name. */
  predicate DistinctNames(sections: seq<Section>) {
    forall i, j :: 0 <= i < j < |sections| ==> sections[i].name != sections[j].name
  }

  /** Every section name decodes. */
  predicate NamesDecode(sections: seq<Section>) {
    forall i :: 0 <= i < |sections| ==> sections[i].name.Some?
  }

  /** The index of the first section whose 8-byte name equals `raw`
      (`iter().find(|s| s.name == raw)`). */
  function FindByRawName(sections: seq<Section>, raw: seq<Byte>): (r: Option<nat>)
    ensures r.Some? ==> r.value < |sections| && sections[r.value].rawName == raw
    ensures r.Some? ==> forall j :: 0 <= j < r.value ==> sections[j].rawName != raw
    ensures r.None? <==> forall j :: 0 <= j < |sections| ==> sections[j].rawName != raw
  {
    if |sections| == 0 then None
    else if sections[0].rawName == raw then Some(0)
    else match FindByRawName(sections[1..], raw)
      case None => None
      case Some(i) => Some(i + 1)
  }
}

=== FILE: pipeline.dfy ===
/** Properties that span stages: a fresh descriptor against the split
    stage's checks, and split followed by link reproducing the original. */
module Pipeline {
  import opened Wrappers
  import opened Bytes
  import opened Pe
  import opened Descriptor
  import opened Chunks
  import opened Initializer
  import opened Splitter
  import opened Reconciler

  /** Every section's virtual range ends inside the 32-bit address space,
      as the split stage's end check demands. */
  predicate SectionEndsFit(sections: seq<Section>) {
    forall i :: 0 <= i < |sections| ==> sections[i].virtualAddress + sections[i].sizeOfRawData <= U32_MAX
  }

  /** The descriptor holds, for each PE section in order, one section of the
      same name whose single copy unit tiles the section from its absolute
      address: what `InitAt` builds when its offset is the image base. */
  ghost predicate AbsoluteDefaults(img: PeImage, cfg: Config) {
    && |cfg.sections| == |img.sections|
    && forall j :: 0 <= j < |img.sections| ==>
      && img.sections[j].name == Some(cfg.sections[j].name)
      && |cfg.sections[j].units| == 1
      && ParseKind(cfg.sections[j].units[0].kind) == Copy
      && Tiles(cfg.sections[j].units, img.imageBase + img.sections[j].virtualAddress, img.sections[j].sizeOfRawData)
  }

  lemma AbsoluteInitDefaults(executable: string, hash: string, img: PeImage)
    requires NamesDecode(img.sections)
    ensures InitAt(executable, hash, img, img.imageBase).Success?
    ensures AbsoluteDefaults(img, InitAt(executable, hash, img, img.imageBase).value)
  {
  }

  /** Split finds each section's own entry in such a descriptor. */
  lemma DefaultSectionFound(img: PeImage, cfg: Config, k: nat)
    requires k < |img.sections|
    requires DistinctNames(img.sections)
    requires AbsoluteDefaults(img, cfg)
    ensures img.sections[k].name.Some?
    ensures FindDescSection(cfg.sections, img.sections[k].name.value) == Some(k)
  {
    var name := cfg.sections[k].name;
    forall j | 0 <= j < k
      ensures cfg.sections[j].name != name
    {
      assert img.sections[j].name != img.sections[k].name;
    }
  }

  /** The unit loop of section `k` of such a descriptor succeeds. */
  lemma DefaultSectionAccepted(file: seq<Byte>, img: PeImage, cfg: Config, k: nat)
    requires k < |img.sections|
    requires RawRangeInFile(file, img.sections[k])
    requires DistinctNames(img.sections)
    requires img.sections[k].virtualAddress + img.sections[k].sizeOfRawData <= U32_MAX
    requires AbsoluteDefaults(img, cfg)
    ensures SectionPasses(file, img, cfg, k)
  {
    DefaultSectionFound(img, cfg, k);
    var s := img.sections[k];
    var units := cfg.sections[k].units;
    assert units[..0] == [];
    assert UnitBuildable(file, s, units, 0);
    SectionUnitsAccept(file, img.imageBase, s, s.name.value, units, 0, img.imageBase + s.virtualAddress);
  }

  /** A descriptor of absolute defaults satisfies the split stage's checks
      from PE section `k` on, when the section names are distinct and the
      raw ranges lie in the file. */
  lemma {:induction false} DefaultSectionsSplit(file: seq<Byte>, img: PeImage, cfg: Config, k: nat)
    requires k <= |img.sections|
    requires RawRangesInFile(file, img.sections)
    requires DistinctNames(img.sections)
    requires SectionEndsFit(img.sections)
    requires AbsoluteDefaults(img, cfg)
    ensures SplitSections(file, img, cfg, k).Success?
    decreases |img.sections| - k
  {
    if k < |img.sections| {
      assert RawRangeInFile(file, img.sections[k]);
      DefaultSectionAccepted(file, img, cfg, k);
      DefaultSectionsSplit(file, img, cfg, k + 1);
      SplitSectionsExtend(file, img, cfg, k);
    }
  }

  /** The descriptor the source builds passes every split check when the
      image base is 0: its units sit at relative virtual addresses, which are
      then also absolute. */
  lemma InitThenSplitSucceedsAtZeroBase(file: seq<Byte>, executable: string, hash: string, img: PeImage)
    requires img.imageBase == 0
    requires RawRangesInFile(file, img.sections)
    requires NamesDecode(img.sections) && DistinctNames(img.sections)
    requires SectionEndsFit(img.sections)
    ensures Init(executable, hash, img).Success?
    ensures Split(file, img, Init(executable, hash, img).value).Success?
  {
    AbsoluteInitDefaults(executable, hash, img);
    DefaultSectionsSplit(file, img, Init(executable, hash, img).value, 0);
  }

  /** The descriptor the source builds fails split's start check on the very
      first unit whenever the image base is not 0: the unit sits at the
      section's relative virtual address, the check wants the absolute one. */
  lemma InitThenSplitFailsAtNonzeroBase(file: seq<Byte>, executable: string, hash: string, img: PeImage)
    requires img.imageBase > 0
    requires |img.sections| > 0
    requires RawRangesInFile(file, img.sections)
    requires NamesDecode(img.sections)
    ensures Init(executable, hash, img).Success?
    ensures Split(file, img, Init(executable, hash, img).value)
         == Failure(UnitNotContiguous(img.sections[0].name.value, 0))
  {
    var cfg := Init(executable, hash, img).value;
    var s := img.sections[0];
    assert FindDescSection(cfg.sections, s.name.value) == Some(0);
    assert cfg.sections[0].units[0].addrVirtual == s.virtualAddress;
  }

  /** The corrected descriptor, with absolute unit addresses, passes every
      split check for any image base. */
  lemma InitAbsoluteThenSplitSucceeds(file: seq<Byte>, executable: string, hash: string, img: PeImage)
    requires RawRangesInFile(file, img.sections)
    requires NamesDecode(img.sections) && DistinctNames(img.sections)
    requires SectionEndsFit(img.sections)
    ensures InitAbsolute(executable, hash, img).Success?
    ensures Split(file, img, InitAbsolute(executable, hash, img).value).Success?
  {
    AbsoluteInitDefaults(executable, hash, img);
    DefaultSectionsSplit(file, img, InitAbsolute(executable, hash, img).value, 0);
  }

  /** Split then link is the identity: whatever donor the toolchain
      produced, when link accepts it on split's donee the final image is the
      original file byte for byte. */
  lemma SplitThenLinkRestoresOriginal(file: seq<Byte>, img: PeImage, cfg: Config, donor: seq<Byte>, donorSections: seq<Section>)
    requires Split(file, img, cfg).Success?
    requires Link(file, img.sections, donor, donorSections, Split(file, img, cfg).value.donee).Success?
    ensures Link(file, img.sections, donor, donorSections, Split(file, img, cfg).value.donee) == Success(file)
  {
    var donee := Split(file, img, cfg).value.donee;
    var out := Link(file, img.sections, donor, donorSections, donee).value;
    assert |out| == |file|;
    forall p | 0 <= p < |file|
      ensures out[p] == file[p]
    {
      if !Covered(img.sections, p) {
        assert donee[p] == file[p];
      }
    }
    assert out == file;
  }

  /** With a byte-accurate toolchain, whose donor is the original file
      itself, split then link reproduces the original. */
  lemma IdentityToolchainRoundTrip(file: seq<Byte>, img: PeImage, cfg: Config)
    requires Split(file, img, cfg).Success?
    requires NamesDecode(img.sections) && DistinctRawNames(img.sections)
    ensures Link(file, img.sections, file, img.sections, Split(file, img, cfg).value.donee) == Success(file)
  {
    IdentityDonorLinks(file, img.sections, Split(file, img, cfg).value.donee);
    SplitThenLinkRestoresOriginal(file, img, cfg, file, img.sections);
  }

  /** For a section built only from copy units, the `DB` lines of its
      region, read in unit order, are exactly the section's raw bytes; with
      the zeroed donee, they are all the build needs to restore it. */
  lemma SplitCopyLinesReproduceSection(file: seq<Byte>, img: PeImage, cfg: Config, j: nat)
    requires Split(file, img, cfg).Success?
    requires j < |img.sections|
    requires forall a :: a in Split(file, img, cfg).value.script.regions[j].artifacts ==> a.CopySource?
    ensures RawRangeInFile(file, img.sections[j])
      && Flatten(CopyLines(Split(file, img, cfg).value.script.regions[j].artifacts)) == RawData(file, img.sections[j])
  {
    RegionCopyLines(file, img, cfg, img.sections[j], Split(file, img, cfg).value.script.regions[j]);
  }

  lemma RegionCopyLines(file: seq<Byte>, img: PeImage, cfg: Config, s: Section, region: Region)
    requires RawRangeInFile(file, s)
    requires RegionFits(file, img, cfg, s, region)
    requires forall a :: a in region.artifacts ==> a.CopySource?
    ensures Flatten(CopyLines(region.artifacts)) == RawData(file, s)
  {
    var units := cfg.sections[FindDescSection(cfg.sections, region.name).value].units;
    UnitsCopyLines(file, s, units, region.address, region.artifacts);
  }

  lemma UnitsCopyLines(file: seq<Byte>, s: Section, units: seq<Unit>, start: nat, arts: seq<Artifact>)
    requires RawRangeInFile(file, s)
    requires UnitsFit(file, s, units, start, arts)
    requires forall a :: a in arts ==> a.CopySource?
    ensures Flatten(CopyLines(arts)) == RawData(file, s)
  {
    assert forall i :: 0 <= i < |arts| ==> arts[i] in arts;
    CopySlicesTileSection(file, s, units, arts, |arts|);
    assert arts[..|arts|] == arts;
    assert units[..|units|] == units;
  }
}

=== FILE: reconciler.dfy ===
/** The link stage's section loop: each original section is checked against
    the same-named section of the donor image the external linker produced,
    then the donor's bytes are transplanted into the donee template. */
module Reconciler {
  import opened Wrappers
  import opened Bytes
  import opened Pe

  /** The buffer a raw range did not fit in. */
  datatype Buffer = OriginalFile | DonorFile | DoneeFile

  datatype LinkError =
    | BadSectionName(section: nat)
    | MissingDonorSection(name: string)
    | RawSizeMismatch(name: string, donorSize: nat, originalSize: nat)
    | RangeOutOfFile(name: string, buffer: Buffer)
    | ContentMismatch(name: string, index: nat, donorByte: Byte, originalByte: Byte)

  /** The first index from `i` on at which `a` and `b` differ, comparing
      position by position up to the shorter length. */
  function FirstMismatch(a: seq<Byte>, b: seq<Byte>, i: nat): (r: Option<nat>)
    ensures r.Some? ==> i <= r.value < |a| && r.value < |b| && a[r.value] != b[r.value]
    ensures r.Some? ==> forall j :: i <= j < r.value ==> a[j] == b[j]
    ensures r.None? <==> forall j :: i <= j < |a| && j < |b| ==> a[j] == b[j]
    decreases |a| - i
  {
    if i >= |a| || i >= |b| then None
    else if a[i] != b[i] then Some(i)
    else FirstMismatch(a, b, i + 1)
  }

  /** The donor holds a section with the same 8-byte name, the same raw size
      and the same raw bytes as `s`, and both ranges lie in their files. */
  ghost predicate DonorAgrees(original: seq<Byte>, s: Section, donor: seq<Byte>, donorSections: seq<Section>) {
    && FindByRawName(donorSections, s.rawName).Some?
    && var d := donorSections[FindByRawName(donorSections, s.rawName).value];
       && d.sizeOfRawData == s.sizeOfRawData
       && RawRangeInFile(original, s)
       && RawRangeInFile(donor, d)
       && RawData(original, s) == RawData(donor, d)
  }

  /** The checks applied to original section `k` before its transplant. On
      success, the donor's raw bytes for it, which equal the original's. */
  function CheckSection(original: seq<Byte>, k: nat, s: Section, donor: seq<Byte>, donorSections: seq<Section>): (r: Result<seq<Byte>, LinkError>)
    ensures r.Success? <==> s.name.Some? && DonorAgrees(original, s, donor, donorSections)
    ensures r.Success? ==> RawRangeInFile(original, s) && r.value == RawData(original, s)
    ensures r.Failure? && r.error.BadSectionName? ==> r.error.section == k && s.name.None?
    ensures r.Failure? && !r.error.BadSectionName? ==> s.name == Some(r.error.name)
  {
    if s.name.None? then Failure(BadSectionName(k))
    else
      var name := s.name.value;
      match FindByRawName(donorSections, s.rawName)
      case None => Failure(MissingDonorSection(name))
      case Some(j) =>
        var d := donorSections[j];
        if s.sizeOfRawData != d.sizeOfRawData then Failure(RawSizeMismatch(name, d.sizeOfRawData, s.sizeOfRawData))
        else if !RawRangeInFile(original, s) then Failure(RangeOutOfFile(name, OriginalFile))
        else if !RawRangeInFile(donor, d) then Failure(RangeOutOfFile(name, DonorFile))
        else
          var o := RawData(original, s);
          var dd := RawData(donor, d);
          match FirstMismatch(o, dd, 0)
          case Some(i) => Failure(ContentMismatch(name, i, dd[i], o[i]))
          case None =>
            assert o == dd;
            Success(dd)
  }

  /** What each failure of `CheckSection` reports: the donor lacks the
      name, or both sizes and that they differ, or the first index at which
      the raw bytes differ with both byte values. */
  lemma CheckSectionReports(original: seq<Byte>, k: nat, s: Section, donor: seq<Byte>, donorSections: seq<Section>)
    ensures var r := CheckSection(original, k, s, donor, donorSections);
      r.Failure? && r.error.MissingDonorSection? ==> FindByRawName(donorSections, s.rawName).None?
    ensures var r := CheckSection(original, k, s, donor, donorSections);
      r.Failure? && r.error.RawSizeMismatch? ==>
        && FindByRawName(donorSections, s.rawName).Some?
        && r.error.donorSize == donorSections[FindByRawName(donorSections, s.rawName).value].sizeOfRawData
        && r.error.originalSize == s.sizeOfRawData
        && r.error.donorSize != r.error.originalSize
    ensures var r := CheckSection(original, k, s, donor, donorSections);
      r.Failure? && r.error.ContentMismatch? ==>
        && FindByRawName(donorSections, s.rawName).Some?
        && var d := donorSections[FindByRawName(donorSections, s.rawName).value];
           && d.sizeOfRawData == s.sizeOfRawData
           && RawRangeInFile(original, s) && RawRangeInFile(donor, d)
           && r.error.index < s.sizeOfRawData
           && r.error.donorByte == RawData(donor, d)[r.error.index]
           && r.error.originalByte == RawData(original, s)[r.error.index]
           && r.error.donorByte != r.error.originalByte
           && RawData(donor, d)[..r.error.index] == RawData(original, s)[..r.error.index]
  {
  }

  /** Section `s` passes its checks and its raw range fits a donee of `doneeLength` bytes. */
  ghost predicate Transplantable(original: seq<Byte>, s: Section, donor: seq<Byte>, donorSections: seq<Section>, doneeLength: nat) {
    s.name.Some? && DonorAgrees(original, s, donor, donorSections) && RawEnd(s) <= doneeLength
  }

  /** The error section `k` raises, if any, against a donee of `doneeLength` bytes. */
  function SectionError(original: seq<Byte>, k: nat, s: Section, donor: seq<Byte>, donorSections: seq<Section>, doneeLength: nat): (r: Option<LinkError>)
    ensures r.None? <==> Transplantable(original, s, donor, donorSections, doneeLength)
  {
    match CheckSection(original, k, s, donor, donorSections)
    case Failure(e) => Some(e)
    case Success(_) => if RawEnd(s) > doneeLength then Some(RangeOutOfFile(s.name.value, DoneeFile)) else None
  }

  /** Section `t` is the first of `sections[k..]` that fails, with error `e`. */
  ghost predicate FirstFailure(original: seq<Byte>, sections: seq<Section>, donor: seq<Byte>, donorSections: seq<Section>, doneeLength: nat, k: nat, t: nat, e: LinkError)
    requires t < |sections|
  {
    && k <= t
    && (forall i :: k <= i < t ==> Transplantable(original, sections[i], donor, donorSections, doneeLength))
    && SectionError(original, t, sections[t], donor, donorSections, doneeLength) == Some(e)
  }

  /** The section loop from original section `k` on, transplanting into `buf`. */
  function Reconcile(original: seq<Byte>, sections: seq<Section>, donor: seq<Byte>, donorSections: seq<Section>, buf: seq<Byte>, k: nat): (r: Result<seq<Byte>, LinkError>)
    requires k <= |sections|
    ensures r.Success? ==> |r.value| == |buf|
    decreases |sections| - k
  {
    if k == |sections| then Success(buf)
    else
      var s := sections[k];
      match CheckSection(original, k, s, donor, donorSections)
      case Failure(e) => Failure(e)
      case Success(data) =>
        if RawEnd(s) > |buf| then Failure(RangeOutOfFile(s.name.value, DoneeFile))
        else Reconcile(original, sections, donor, donorSections, Overwrite(buf, s.pointerToRawData, data), k + 1)
  }

  /** The loop succeeds exactly when every remaining section is transplantable. */
  lemma {:induction false} ReconcileSucceeds(original: seq<Byte>, sections: seq<Section>, donor: seq<Byte>, donorSections: seq<Section>, buf: seq<Byte>, k: nat)
    requires k <= |sections|
    ensures Reconcile(original, sections, donor, donorSections, buf, k).Success?
      <==> forall i :: k <= i < |sections| ==> Transplantable(original, sections[i], donor, donorSections, |buf|)
    decreases |sections| - k
  {
    if k < |sections| {
      var s := sections[k];
      var c := CheckSection(original, k, s, donor, donorSections);
      if c.Success? && RawEnd(s) <= |buf| {
        ReconcileSucceeds(original, sections, donor, donorSections, Overwrite(buf, s.pointerToRawData, c.value), k + 1);
      }
    }
  }

  /** After a successful loop, every byte inside a remaining section's raw
      range is the original's and every other byte is the buffer's. */
  lemma {:induction false} ReconcileBytes(original: seq<Byte>, sections: seq<Section>, donor: seq<Byte>, donorSections: seq<Section>, buf: seq<Byte>, k: nat)
    requires k <= |sections|
    ensures var r := Reconcile(original, sections, donor, donorSections, buf, k);
      r.Success? ==> forall p :: 0 <= p < |buf| && !CoveredBy(sections, k, |sections|, p) ==> r.value[p] == buf[p]
    ensures var r := Reconcile(original, sections, donor, donorSections, buf, k);
      r.Success? ==> forall p :: 0 <= p < |buf| && p < |original| ==> r.value[p] == if CoveredBy(sections, k, |sections|, p) then original[p] else buf[p]
    decreases |sections| - k
  {
    var c := if k < |sections| then CheckSection(original, k, sections[k], donor, donorSections) else Failure(BadSectionName(k));
    if k < |sections| && c.Success? && RawEnd(sections[k]) <= |buf| {
      var s := sections[k];
      var data := CheckSection(original, k, s, donor, donorSections).value;
      var next := Overwrite(buf, s.pointerToRawData, data);
      ReconcileBytes(original, sections, donor, donorSections, next, k + 1);
      var r := Reconcile(original, sections, donor, donorSections, buf, k);
      assert r == Reconcile(original, sections, donor, donorSections, next, k + 1);
      if r.Success? {
        forall p | 0 <= p < |buf|
          ensures !CoveredBy(sections, k, |sections|, p) ==> r.value[p] == buf[p]
          ensures p < |original| ==> r.value[p] == if CoveredBy(sections, k, |sections|, p) then original[p] else buf[p]
        {
          CoveredByShrink(sections, k, |sections|, p);
        }
      }
    }
  }

  /** A failed loop reports the error of the first remaining section that fails. */
  lemma {:induction false} ReconcileFailsFirst(original: seq<Byte>, sections: seq<Section>, donor: seq<Byte>, donorSections: seq<Section>, buf: seq<Byte>, k: nat)
    requires k <= |sections|
    ensures var r := Reconcile(original, sections, donor, donorSections, buf, k);
      r.Failure? ==> exists t :: k <= t < |sections| && FirstFailure(original, sections, donor, donorSections, |buf|, k, t, r.error)
    decreases |sections| - k
  {
    var r := Reconcile(original, sections, donor, donorSections, buf, k);
    if k == |sections| {
      return;
    }
    var s := sections[k];
    var c := CheckSection(original, k, s, donor, donorSections);
    if c.Failure? || RawEnd(s) > |buf| {
      assert FirstFailure(original, sections, donor, donorSections, |buf|, k, k, r.error);
    } else {
      var next := Overwrite(buf, s.pointerToRawData, c.value);
      ReconcileFailsFirst(original, sections, donor, donorSections, next, k + 1);
      if r.Failure? {
        var t :| k + 1 <= t < |sections| && FirstFailure(original, sections, donor, donorSections, |next|, k + 1, t, r.error);
        assert FirstFailure(original, sections, donor, donorSections, |buf|, k, t, r.error);
      }
    }
  }

  /** The link stage's section loop over the original sections, in order,
      transplanting into the donee. The final image exists only when every
      section passed; it is the donee with each section's raw range replaced
      by the original's bytes, which the donor reproduced. */
  function Link(original: seq<Byte>, sections: seq<Section>, donor: seq<Byte>, donorSections: seq<Section>, donee: seq<Byte>): (r: Result<seq<Byte>, LinkError>)
    ensures r.Success? <==> forall i :: 0 <= i < |sections| ==> Transplantable(original, sections[i], donor, donorSections, |donee|)
    ensures r.Success? ==> |r.value| == |donee|
    ensures r.Success? ==> forall p :: 0 <= p < |donee| && !Covered(sections, p) ==> r.value[p] == donee[p]
    ensures r.Success? ==> forall p :: 0 <= p < |donee| && Covered(sections, p) ==> p < |original| && r.value[p] == original[p]
    ensures r.Failure? ==> exists t :: 0 <= t < |sections| && FirstFailure(original, sections, donor, donorSections, |donee|, 0, t, r.error)
  {
    ReconcileSucceeds(original, sections, donor, donorSections, donee, 0);
    ReconcileBytes(original, sections, donor, donorSections, donee, 0);
    ReconcileFailsFirst(original, sections, donor, donorSections, donee, 0);
    Reconcile(original, sections, donor, donorSections, donee, 0)
  }

  /** Mismatch detection: when every section before `t` passes and section
      `t`'s donor bytes first differ from the original's at index `i`, link
      fails citing exactly that section, index and both byte values. */
  lemma LinkReportsFirstMismatch(original: seq<Byte>, sections: seq<Section>, donor: seq<Byte>, donorSections: seq<Section>, donee: seq<Byte>, t: nat)
    requires t < |sections|
    requires forall i :: 0 <= i < t ==> Transplantable(original, sections[i], donor, donorSections, |donee|)
    requires CheckSection(original, t, sections[t], donor, donorSections).Failure?
    ensures Link(original, sections, donor, donorSections, donee) == Failure(CheckSection(original, t, sections[t], donor, donorSections).error)
  {
    var r := Link(original, sections, donor, donorSections, donee);
    assert !Transplantable(original, sections[t], donor, donorSections, |donee|);
    var t' :| 0 <= t' < |sections| && FirstFailure(original, sections, donor, donorSections, |donee|, 0, t', r.error);
    assert t' == t;
  }

  /** With a byte-accurate toolchain — the donor is the original file itself —
      link succeeds on a donee of the original's length and writes every
      section's original bytes back. */
  lemma IdentityDonorLinks(file: seq<Byte>, sections: seq<Section>, donee: seq<Byte>)
    requires RawRangesInFile(file, sections)
    requires NamesDecode(sections)
    requires DistinctRawNames(sections)
    requires |donee| == |file|
    ensures Link(file, sections, file, sections, donee).Success?
  {
    forall i | 0 <= i < |sections|
      ensures Transplantable(file, sections[i], file, sections, |donee|)
    {
      var f := FindByRawName(sections, sections[i].rawName);
      assert f == Some(i);
      assert RawRangeInFile(file, sections[i]);
    }
  }
}

=== FILE: splitter.dfy ===
/** The split stage: builds the zeroed donee template, checks that each
    section's units tile it, turns copy units into `DB` lines and lists the
    units' object files per link-script region. */
module Splitter {
  import opened Wrappers
  import opened Bytes
  import opened Pe
  import opened Descriptor
  import opened Chunks

  datatype SplitError =
    | RawDataOutOfFile(section: nat)
    | BadSectionName(section: nat)
    | MissingUnitConfiguration(name: string)
    | UnitNotContiguous(name: string, unit: nat)
    | CopyRangeOutOfFile(name: string, unit: nat)
    | AsmMissingFile(name: string, unit: nat)
    | InvalidKind(name: string, unit: nat, kind: string)
    | SectionEndOverflow(name: string)
    | UnitSizesMismatch(name: string)

  /** What one unit contributes to the build: the `DB` lines of a copy unit's
      generated source, or the operator's source path of an `asm` unit. */
  datatype Artifact =
    | CopySource(lines: seq<seq<Byte>>)
    | AsmSource(path: string)

  /** Which object file the link script lists for a unit:
      `build/<section>_copy_<unit>.obj(POD)` or `build/<section>_asm_<unit>.obj(POD)`. */
  datatype ObjectKind = CopyObject | AsmObject
  datatype ObjectRef = ObjectRef(section: string, kind: ObjectKind, unit: nat)

  /** One link-script region: a section placed at its absolute address. */
  datatype Region = Region(name: string, address: nat, artifacts: seq<Artifact>)

  /** The link script: the `_start` symbol's value and the regions in order. */
  datatype LinkScript = LinkScript(start: nat, regions: seq<Region>)

  datatype SplitOutput = SplitOutput(donee: seq<Byte>, script: LinkScript)

  // ---------------------------------------------------------------- donee

  /** Zero-fills the raw ranges of `sections[k..]` in `buf`, in order, failing
      at the first range that does not fit in the file. */
  function ZeroFrom(file: seq<Byte>, sections: seq<Section>, buf: seq<Byte>, k: nat): (r: Result<seq<Byte>, SplitError>)
    requires k <= |sections|
    requires |buf| == |file|
    requires forall p :: 0 <= p < |file| ==> buf[p] == if CoveredBy(sections, 0, k, p) then 0 else file[p]
    ensures r.Success? <==> forall i :: k <= i < |sections| ==> RawRangeInFile(file, sections[i])
    ensures r.Success? ==> |r.value| == |file|
    ensures r.Success? ==> forall p :: 0 <= p < |file| ==> r.value[p] == if Covered(sections, p) then 0 else file[p]
    ensures r.Failure? ==>
      && r.error.RawDataOutOfFile?
      && k <= r.error.section < |sections|
      && !RawRangeInFile(file, sections[r.error.section])
      && forall i :: k <= i < r.error.section ==> RawRangeInFile(file, sections[i])
    decreases |sections| - k
  {
    if k == |sections| then Success(buf)
    else
      var s := sections[k];
      if !RawRangeInFile(file, s) then Failure(RawDataOutOfFile(k))
      else
        var next := Overwrite(buf, s.pointerToRawData, Zeros(s.sizeOfRawData));
        assert forall p :: 0 <= p < |file| ==> next[p] == if CoveredBy(sections, 0, k + 1, p) then 0 else file[p] by {
          forall p | 0 <= p < |file|
            ensures next[p] == if CoveredBy(sections, 0, k + 1, p) then 0 else file[p]
          {
            CoveredByExtend(sections, 0, k, p);
          }
        }
        ZeroFrom(file, sections, next, k + 1)
  }

  /** The donee template: the original file with every section's raw range
      zeroed and every other byte kept. */
  function Donee(file: seq<Byte>, sections: seq<Section>): (r: Result<seq<Byte>, SplitError>)
    ensures r.Success? <==> RawRangesInFile(file, sections)
    ensures r.Success? ==> |r.value| == |file|
    ensures r.Success? ==> forall p :: 0 <= p < |file| ==> r.value[p] == if Covered(sections, p) then 0 else file[p]
  {
    ZeroFrom(file, sections, file, 0)
  }

  // ---------------------------------------------------------------- units

  /** The file offset where a unit's bytes begin: as far into the section's
      raw data as the unit's address is past the section's absolute start.
      Defined only for a unit that starts at or after its section, which the
      start check guarantees. */
  function CopyStart(base: nat, s: Section, u: Unit): nat
    requires base + s.virtualAddress <= u.addrVirtual
  {
    s.pointerToRawData + u.addrVirtual - s.virtualAddress - base
  }

  /** What unit `j` of `units` produces, for a unit that has passed the start check. */
  function UnitArtifact(file: seq<Byte>, base: nat, s: Section, name: string, u: Unit, j: nat): (r: Result<Artifact, SplitError>)
    requires base + s.virtualAddress <= u.addrVirtual
    ensures r.Success? <==>
      || (ParseKind(u.kind) == Copy && CopyStart(base, s, u) + u.rawSize <= |file|)
      || (ParseKind(u.kind) == Asm && u.file.Some?)
    ensures r.Success? && r.value.CopySource? ==> ParseKind(u.kind) == Copy && CopyStart(base, s, u) + u.rawSize <= |file|
    ensures r.Success? && r.value.AsmSource? ==> ParseKind(u.kind) == Asm && u.file == Some(r.value.path)
    ensures r.Failure? ==> r.error in {CopyRangeOutOfFile(name, j), AsmMissingFile(name, j), InvalidKind(name, j, u.kind)}
  {
    match ParseKind(u.kind)
    case Copy =>
      var start := CopyStart(base, s, u);
      if start + u.rawSize > |file| then Failure(CopyRangeOutOfFile(name, j))
      else Success(CopySource(DbLines(file[start..start + u.rawSize])))
    case Asm =>
      if u.file.None? then Failure(AsmMissingFile(name, j))
      else Success(AsmSource(u.file.value))
    case Invalid(tag) => Failure(InvalidKind(name, j, tag))
  }

  /** A copy unit's `DB` lines hold exactly its slice of the file, at most
      `DbLineCapacity` values per line. */
  lemma UnitArtifactLines(file: seq<Byte>, base: nat, s: Section, name: string, u: Unit, j: nat)
    requires base + s.virtualAddress <= u.addrVirtual
    requires UnitArtifact(file, base, s, name, u, j).Success? && UnitArtifact(file, base, s, name, u, j).value.CopySource?
    ensures var lines := UnitArtifact(file, base, s, name, u, j).value.lines;
      && Flatten(lines) == file[CopyStart(base, s, u)..CopyStart(base, s, u) + u.rawSize]
      && forall i :: 0 <= i < |lines| ==> |lines[i]| <= DbLineCapacity
  {
  }

  /** Artifact `art` is what unit `j` yields when the units tile the section:
      a copy unit's lines hold the file bytes at the section's file offset
      plus the sizes of the units before it. */
  ghost predicate ArtifactFits(file: seq<Byte>, s: Section, units: seq<Unit>, j: nat, art: Artifact)
    requires j < |units|
  {
    match art
    case CopySource(lines) =>
      && ParseKind(units[j].kind) == Copy
      && s.pointerToRawData + TotalSize(units[..j]) + units[j].rawSize <= |file|
      && Flatten(lines) == file[s.pointerToRawData + TotalSize(units[..j])..s.pointerToRawData + TotalSize(units[..j]) + units[j].rawSize]
    case AsmSource(path) =>
      && ParseKind(units[j].kind) == Asm
      && units[j].file == Some(path)
  }

  /** The unit loop of one section from unit `i` on, `lastEnd` being where
      unit `i` must begin. */
  function SectionUnits(file: seq<Byte>, base: nat, s: Section, name: string, units: seq<Unit>, i: nat, lastEnd: nat): (r: Result<seq<Artifact>, SplitError>)
    requires i <= |units|
    requires base + s.virtualAddress <= lastEnd
    ensures r.Success? ==> |r.value| == |units| - i
    ensures r.Failure? ==> !r.error.RawDataOutOfFile? && !r.error.BadSectionName? && !r.error.MissingUnitConfiguration? && r.error.name == name
    decreases |units| - i
  {
    if i == |units| then
      if s.virtualAddress + s.sizeOfRawData > U32_MAX then Failure(SectionEndOverflow(name))
      else if lastEnd != base + s.virtualAddress + s.sizeOfRawData then Failure(UnitSizesMismatch(name))
      else Success([])
    else
      var u := units[i];
      if u.addrVirtual != lastEnd then Failure(UnitNotContiguous(name, i))
      else
        match UnitArtifact(file, base, s, name, u, i)
        case Failure(e) => Failure(e)
        case Success(art) =>
          match SectionUnits(file, base, s, name, units, i + 1, lastEnd + u.rawSize)
          case Failure(e) => Failure(e)
          case Success(rest) => Success([art] + rest)
  }

  /** Artifacts `arts` are what units `i..` yield, in order. */
  ghost predicate ArtifactsFitFrom(file: seq<Byte>, s: Section, units: seq<Unit>, i: nat, arts: seq<Artifact>) {
    forall j :: 0 <= j < |arts| && i + j < |units| ==> ArtifactFits(file, s, units, i + j, arts[j])
  }

  /** A successful unit loop means the units tile the section. */
  lemma {:induction false} SectionUnitsTile(file: seq<Byte>, base: nat, s: Section, name: string, units: seq<Unit>, i: nat, lastEnd: nat)
    requires i <= |units|
    requires ContiguousPrefix(units, base + s.virtualAddress, i)
    requires lastEnd == base + s.virtualAddress + TotalSize(units[..i])
    requires SectionUnits(file, base, s, name, units, i, lastEnd).Success?
    ensures Tiles(units, base + s.virtualAddress, s.sizeOfRawData)
    decreases |units| - i
  {
    if i == |units| {
      assert units[..i] == units;
    } else {
      TotalSizeStep(units, i);
      assert ContiguousPrefix(units, base + s.virtualAddress, i + 1);
      SectionUnitsTile(file, base, s, name, units, i + 1, lastEnd + units[i].rawSize);
    }
  }

  /** In a successful unit loop over contiguous units, each artifact is what
      its unit yields at its offset in the section. */
  lemma {:induction false} SectionUnitsArtifacts(file: seq<Byte>, base: nat, s: Section, name: string, units: seq<Unit>, i: nat, lastEnd: nat)
    requires i <= |units|
    requires lastEnd == base + s.virtualAddress + TotalSize(units[..i])
    requires SectionUnits(file, base, s, name, units, i, lastEnd).Success?
    ensures ArtifactsFitFrom(file, s, units, i, SectionUnits(file, base, s, name, units, i, lastEnd).value)
    decreases |units| - i
  {
    if i < |units| {
      var u := units[i];
      TotalSizeStep(units, i);
      assert CopyStart(base, s, u) == s.pointerToRawData + TotalSize(units[..i]);
      var art := UnitArtifact(file, base, s, name, u, i).value;
      if art.CopySource? {
        UnitArtifactLines(file, base, s, name, u, i);
      }
      var rest := SectionUnits(file, base, s, name, units, i + 1, lastEnd + u.rawSize).value;
      SectionUnitsArtifacts(file, base, s, name, units, i + 1, lastEnd + u.rawSize);
      var all := SectionUnits(file, base, s, name, units, i, lastEnd).value;
      assert all == [art] + rest;
      assert ArtifactFits(file, s, units, i, art);
      forall j | 0 <= j < |all| && i + j < |units|
        ensures ArtifactFits(file, s, units, i + j, all[j])
      {
        if j > 0 {
          assert all[j] == rest[j - 1];
          assert (i + 1) + (j - 1) == i + j;
        }
      }
    }
  }

  /** A unit that does not begin where its predecessors end is reported by
      its index, after every earlier unit passed the start check. */
  lemma {:induction false} SectionUnitsRejectsStart(file: seq<Byte>, base: nat, s: Section, name: string, units: seq<Unit>, i: nat, lastEnd: nat, bad: nat)
    requires i <= |units|
    requires ContiguousPrefix(units, base + s.virtualAddress, i)
    requires lastEnd == base + s.virtualAddress + TotalSize(units[..i])
    requires SectionUnits(file, base, s, name, units, i, lastEnd) == Failure(UnitNotContiguous(name, bad))
    ensures i <= bad < |units|
    ensures ContiguousPrefix(units, base + s.virtualAddress, bad)
    ensures units[bad].addrVirtual != base + s.virtualAddress + TotalSize(units[..bad])
    decreases |units| - i
  {
    assert i < |units|;
    if units[i].addrVirtual == lastEnd {
      ContiguousExtend(units, base + s.virtualAddress, i);
      SectionUnitsPassesOn(file, base, s, name, units, i, lastEnd);
      SectionUnitsRejectsStart(file, base, s, name, units, i + 1, lastEnd + units[i].rawSize, bad);
    } else {
      assert bad == i;
    }
  }

  /** A unit loop whose units all begin in place but whose running end
      misses the section end is reported as a size error. */
  lemma {:induction false} SectionUnitsRejectsSize(file: seq<Byte>, base: nat, s: Section, name: string, units: seq<Unit>, i: nat, lastEnd: nat)
    requires i <= |units|
    requires ContiguousPrefix(units, base + s.virtualAddress, i)
    requires lastEnd == base + s.virtualAddress + TotalSize(units[..i])
    requires SectionUnits(file, base, s, name, units, i, lastEnd) == Failure(UnitSizesMismatch(name))
    ensures ContiguousPrefix(units, base + s.virtualAddress, |units|)
    ensures TotalSize(units) != s.sizeOfRawData
    decreases |units| - i
  {
    if i == |units| {
      assert units[..i] == units;
    } else {
      assert units[i].addrVirtual == lastEnd;
      ContiguousExtend(units, base + s.virtualAddress, i);
      SectionUnitsPassesOn(file, base, s, name, units, i, lastEnd);
      SectionUnitsRejectsSize(file, base, s, name, units, i + 1, lastEnd + units[i].rawSize);
    }
  }

  /** A unit loop whose units all begin in place but whose section's
      virtual address plus raw size exceeds the 32-bit range is reported as
      an overflow of the section end. */
  lemma {:induction false} SectionUnitsRejectsOverflow(file: seq<Byte>, base: nat, s: Section, name: string, units: seq<Unit>, i: nat, lastEnd: nat)
    requires i <= |units|
    requires ContiguousPrefix(units, base + s.virtualAddress, i)
    requires lastEnd == base + s.virtualAddress + TotalSize(units[..i])
    requires SectionUnits(file, base, s, name, units, i, lastEnd) == Failure(SectionEndOverflow(name))
    ensures ContiguousPrefix(units, base + s.virtualAddress, |units|)
    ensures s.virtualAddress + s.sizeOfRawData > U32_MAX
    decreases |units| - i
  {
    if i < |units| {
      assert units[i].addrVirtual == lastEnd;
      ContiguousExtend(units, base + s.virtualAddress, i);
      SectionUnitsPassesOn(file, base, s, name, units, i, lastEnd);
      SectionUnitsRejectsOverflow(file, base, s, name, units, i + 1, lastEnd + units[i].rawSize);
    }
  }

  /** A unit that passes the start check hands any start, size or
      section-end error of the units after it through unchanged. */
  lemma SectionUnitsPassesOn(file: seq<Byte>, base: nat, s: Section, name: string, units: seq<Unit>, i: nat, lastEnd: nat)
    requires i < |units|
    requires base + s.virtualAddress <= lastEnd
    requires units[i].addrVirtual == lastEnd
    ensures var r := SectionUnits(file, base, s, name, units, i, lastEnd);
      r.Failure? && (r.error.UnitNotContiguous? || r.error.UnitSizesMismatch? || r.error.SectionEndOverflow?) ==>
        r == SectionUnits(file, base, s, name, units, i + 1, lastEnd + units[i].rawSize)
  {
  }

  /** A unit that passes the start check and builds hands any error of the
      units after it through unchanged. */
  lemma SectionUnitsHandsOn(file: seq<Byte>, base: nat, s: Section, name: string, units: seq<Unit>, i: nat, lastEnd: nat)
    requires i < |units|
    requires base + s.virtualAddress <= lastEnd
    requires units[i].addrVirtual == lastEnd
    requires UnitArtifact(file, base, s, name, units[i], i).Success?
    ensures var r := SectionUnits(file, base, s, name, units, i, lastEnd);
      r.Failure? ==> r == SectionUnits(file, base, s, name, units, i + 1, lastEnd + units[i].rawSize)
  {
  }

  /** In a contiguous prefix, unit `j`'s bytes begin right after the raw
      bytes of the units before it. */
  lemma CopyStartAfterPrefix(base: nat, s: Section, units: seq<Unit>, j: nat)
    requires j < |units|
    requires ContiguousPrefix(units, base + s.virtualAddress, j + 1)
    ensures base + s.virtualAddress <= units[j].addrVirtual
    ensures CopyStart(base, s, units[j]) == s.pointerToRawData + TotalSize(units[..j])
  {
  }

  /** A unit loop that reports a missing `asm` source names a unit that begins
      in place, after contiguous units, and is an `asm` unit without a file. */
  lemma {:induction false} SectionUnitsRejectsAsm(file: seq<Byte>, base: nat, s: Section, name: string, units: seq<Unit>, i: nat, lastEnd: nat, bad: nat)
    requires i <= |units|
    requires ContiguousPrefix(units, base + s.virtualAddress, i)
    requires lastEnd == base + s.virtualAddress + TotalSize(units[..i])
    requires SectionUnits(file, base, s, name, units, i, lastEnd) == Failure(AsmMissingFile(name, bad))
    ensures i <= bad < |units|
    ensures ContiguousPrefix(units, base + s.virtualAddress, bad + 1)
    ensures ParseKind(units[bad].kind) == Asm && units[bad].file.None?
    decreases |units| - i
  {
    assert i < |units| && units[i].addrVirtual == lastEnd;
    ContiguousExtend(units, base + s.virtualAddress, i);
    if UnitArtifact(file, base, s, name, units[i], i).Success? {
      SectionUnitsHandsOn(file, base, s, name, units, i, lastEnd);
      SectionUnitsRejectsAsm(file, base, s, name, units, i + 1, lastEnd + units[i].rawSize, bad);
    } else {
      assert bad == i;
    }
  }

  /** A unit loop that reports an unknown kind names a unit that begins in
      place, after contiguous units, and whose kind is neither `copy` nor
      `asm`, with that kind in the report. */
  lemma {:induction false} SectionUnitsRejectsKind(file: seq<Byte>, base: nat, s: Section, name: string, units: seq<Unit>, i: nat, lastEnd: nat, bad: nat, tag: string)
    requires i <= |units|
    requires ContiguousPrefix(units, base + s.virtualAddress, i)
    requires lastEnd == base + s.virtualAddress + TotalSize(units[..i])
    requires SectionUnits(file, base, s, name, units, i, lastEnd) == Failure(InvalidKind(name, bad, tag))
    ensures i <= bad < |units|
    ensures ContiguousPrefix(units, base + s.virtualAddress, bad + 1)
    ensures ParseKind(units[bad].kind).Invalid? && tag == units[bad].kind
    decreases |units| - i
  {
    assert i < |units| && units[i].addrVirtual == lastEnd;
    ContiguousExtend(units, base + s.virtualAddress, i);
    if UnitArtifact(file, base, s, name, units[i], i).Success? {
      SectionUnitsHandsOn(file, base, s, name, units, i, lastEnd);
      SectionUnitsRejectsKind(file, base, s, name, units, i + 1, lastEnd + units[i].rawSize, bad, tag);
    } else {
      assert bad == i;
    }
  }

  /** A unit loop that reports a copy range past the file names a copy unit
      that begins in place, after contiguous units, and whose bytes, taken
      right after those of the units before it, run past the end of the file. */
  lemma {:induction false} SectionUnitsRejectsCopyRange(file: seq<Byte>, base: nat, s: Section, name: string, units: seq<Unit>, i: nat, lastEnd: nat, bad: nat)
    requires i <= |units|
    requires ContiguousPrefix(units, base + s.virtualAddress, i)
    requires lastEnd == base + s.virtualAddress + TotalSize(units[..i])
    requires SectionUnits(file, base, s, name, units, i, lastEnd) == Failure(CopyRangeOutOfFile(name, bad))
    ensures i <= bad < |units|
    ensures ContiguousPrefix(units, base + s.virtualAddress, bad + 1)
    ensures ParseKind(units[bad].kind) == Copy
    ensures s.pointerToRawData + TotalSize(units[..bad]) + units[bad].rawSize > |file|
    decreases |units| - i
  {
    assert i < |units| && units[i].addrVirtual == lastEnd;
    ContiguousExtend(units, base + s.virtualAddress, i);
    if UnitArtifact(file, base, s, name, units[i], i).Success? {
      SectionUnitsHandsOn(file, base, s, name, units, i, lastEnd);
      SectionUnitsRejectsCopyRange(file, base, s, name, units, i + 1, lastEnd + units[i].rawSize, bad);
    } else {
      assert bad == i;
      CopyStartAfterPrefix(base, s, units, i);
    }
  }

  /** The unit loop of a section whose units tile it, whose kinds are known,
      whose `asm` units name a file and whose copy units lie in the file
      succeeds. */
  lemma {:induction false} SectionUnitsAccept(file: seq<Byte>, base: nat, s: Section, name: string, units: seq<Unit>, i: nat, lastEnd: nat)
    requires i <= |units|
    requires lastEnd == base + s.virtualAddress + TotalSize(units[..i])
    requires Tiles(units, base + s.virtualAddress, s.sizeOfRawData)
    requires s.virtualAddress + s.sizeOfRawData <= U32_MAX
    requires forall j :: i <= j < |units| ==> UnitBuildable(file, s, units, j)
    ensures SectionUnits(file, base, s, name, units, i, lastEnd).Success?
    decreases |units| - i
  {
    if i == |units| {
      assert units[..i] == units;
    } else {
      TotalSizeStep(units, i);
      assert UnitBuildable(file, s, units, i);
      SectionUnitsAccept(file, base, s, name, units, i + 1, lastEnd + units[i].rawSize);
    }
  }

  /** Unit `j` can be built: its kind is known, an `asm` unit names its
      source, and a copy unit's bytes lie inside the file. */
  ghost predicate UnitBuildable(file: seq<Byte>, s: Section, units: seq<Unit>, j: nat)
    requires j < |units|
  {
    match ParseKind(units[j].kind)
    case Copy => s.pointerToRawData + TotalSize(units[..j]) + units[j].rawSize <= |file|
    case Asm => units[j].file.Some?
    case Invalid(_) => false
  }

  /** The `DB` lines of the copy artifacts among `arts`, in unit order. */
  function CopyLines(arts: seq<Artifact>): seq<seq<Byte>> {
    if |arts| == 0 then []
    else CopyLines(arts[..|arts| - 1]) + match arts[|arts| - 1] { case CopySource(lines) => lines case AsmSource(_) => [] }
  }

  /** When every unit of a section is a copy unit, the generated `DB` lines,
      read in unit order, reproduce the section's raw bytes exactly: the copy
      slices tile the section's raw range. */
  lemma {:induction false} CopySlicesTileSection(file: seq<Byte>, s: Section, units: seq<Unit>, arts: seq<Artifact>, n: nat)
    requires s.pointerToRawData <= |file|
    requires |arts| == |units|
    requires ArtifactsFitFrom(file, s, units, 0, arts)
    requires forall j :: 0 <= j < |arts| ==> arts[j].CopySource?
    requires n <= |arts|
    ensures s.pointerToRawData + TotalSize(units[..n]) <= |file|
    ensures Flatten(CopyLines(arts[..n])) == file[s.pointerToRawData..s.pointerToRawData + TotalSize(units[..n])]
  {
    if n == 0 {
      assert units[..0] == [];
      assert arts[..0] == [];
    } else {
      var m := n - 1;
      CopySlicesTileSection(file, s, units, arts, m);
      var p := s.pointerToRawData;
      var off := TotalSize(units[..m]);
      assert ArtifactFits(file, s, units, 0 + m, arts[m]);
      var lines := arts[m].lines;
      TotalSizeStep(units, m);
      CopyLinesStep(arts, m);
      FlattenAppend(CopyLines(arts[..m]), lines);
      SliceJoin(file, p, p + off, p + off + units[m].rawSize);
    }
  }

  lemma CopyLinesStep(arts: seq<Artifact>, m: nat)
    requires m < |arts| && arts[m].CopySource?
    ensures CopyLines(arts[..m + 1]) == CopyLines(arts[..m]) + arts[m].lines
  {
    assert arts[..m + 1][..m] == arts[..m];
  }

  lemma SliceJoin(file: seq<Byte>, a: nat, b: nat, c: nat)
    requires a <= b <= c <= |file|
    ensures file[a..b] + file[b..c] == file[a..c]
  {
  }

  // ---------------------------------------------------------------- sections

  /** The units tile the section from `start` and the artifacts are what they yield. */
  ghost predicate UnitsFit(file: seq<Byte>, s: Section, units: seq<Unit>, start: nat, arts: seq<Artifact>) {
    && Tiles(units, start, s.sizeOfRawData)
    && |arts| == |units|
    && ArtifactsFitFrom(file, s, units, 0, arts)
  }

  /** Region `region` is what PE section `s` yields: it carries the section's
      name and absolute address, and the descriptor section of that name has
      units that tile the section and yield the region's artifacts. */
  ghost predicate RegionFits(file: seq<Byte>, img: PeImage, cfg: Config, s: Section, region: Region) {
    && s.name == Some(region.name)
    && region.address == img.imageBase + s.virtualAddress
    && FindDescSection(cfg.sections, region.name).Some?
    && UnitsFit(file, s, cfg.sections[FindDescSection(cfg.sections, region.name).value].units, region.address, region.artifacts)
  }

  /** The section loop from PE section `k` on. */
  function SplitSections(file: seq<Byte>, img: PeImage, cfg: Config, k: nat): (r: Result<seq<Region>, SplitError>)
    requires k <= |img.sections|
    ensures r.Success? ==> |r.value| == |img.sections| - k
    decreases |img.sections| - k
  {
    if k == |img.sections| then Success([])
    else
      var s := img.sections[k];
      if s.name.None? then Failure(BadSectionName(k))
      else
        var name := s.name.value;
        match FindDescSection(cfg.sections, name)
        case None => Failure(MissingUnitConfiguration(name))
        case Some(c) =>
          var start := img.imageBase + s.virtualAddress;
          match SectionUnits(file, img.imageBase, s, name, cfg.sections[c].units, 0, start)
          case Failure(e) => Failure(e)
          case Success(arts) =>
            match SplitSections(file, img, cfg, k + 1)
            case Failure(e) => Failure(e)
            case Success(rest) => Success([Region(name, start, arts)] + rest)
  }

  /** Regions `regions` are what PE sections `k..` yield, in order. */
  ghost predicate RegionsFitFrom(file: seq<Byte>, img: PeImage, cfg: Config, k: nat, regions: seq<Region>) {
    forall j :: 0 <= j < |regions| && k + j < |img.sections| ==> RegionFits(file, img, cfg, img.sections[k + j], regions[j])
  }

  /** The region a section yields when its unit loop succeeds. */
  lemma SectionRegionFits(file: seq<Byte>, img: PeImage, cfg: Config, s: Section, name: string, c: nat, arts: seq<Artifact>)
    requires s.name == Some(name)
    requires FindDescSection(cfg.sections, name) == Some(c)
    requires SectionUnits(file, img.imageBase, s, name, cfg.sections[c].units, 0, img.imageBase + s.virtualAddress) == Success(arts)
    ensures RegionFits(file, img, cfg, s, Region(name, img.imageBase + s.virtualAddress, arts))
  {
    SectionUnitsFit(file, img.imageBase, s, name, cfg.sections[c].units);
  }

  /** A successful unit loop over a whole section: its units tile the
      section and its artifacts are what they yield. */
  lemma SectionUnitsFit(file: seq<Byte>, base: nat, s: Section, name: string, units: seq<Unit>)
    requires SectionUnits(file, base, s, name, units, 0, base + s.virtualAddress).Success?
    ensures UnitsFit(file, s, units, base + s.virtualAddress, SectionUnits(file, base, s, name, units, 0, base + s.virtualAddress).value)
  {
    assert units[..0] == [];
    SectionUnitsTile(file, base, s, name, units, 0, base + s.virtualAddress);
    SectionUnitsArtifacts(file, base, s, name, units, 0, base + s.virtualAddress);
  }

  /** A successful section loop from `k` passes section `k` and succeeds from `k + 1`. */
  lemma SplitSectionsStepPasses(file: seq<Byte>, img: PeImage, cfg: Config, k: nat)
    requires k < |img.sections|
    requires SplitSections(file, img, cfg, k).Success?
    ensures SectionPasses(file, img, cfg, k)
    ensures SplitSections(file, img, cfg, k + 1).Success?
  {
    var s := img.sections[k];
    assert s.name.Some?;
    var c := FindDescSection(cfg.sections, s.name.value);
    assert c.Some?;
    assert SectionUnits(file, img.imageBase, s, s.name.value, cfg.sections[c.value].units, 0, img.imageBase + s.virtualAddress).Success?;
  }

  /** One step of a successful section loop: the head region and the rest. */
  lemma SplitSectionsStep(file: seq<Byte>, img: PeImage, cfg: Config, k: nat)
    requires k < |img.sections|
    requires SplitSections(file, img, cfg, k).Success?
    ensures img.sections[k].name.Some?
    ensures FindDescSection(cfg.sections, img.sections[k].name.value).Some?
    ensures var s := img.sections[k];
      var units := cfg.sections[FindDescSection(cfg.sections, s.name.value).value].units;
      var u := SectionUnits(file, img.imageBase, s, s.name.value, units, 0, img.imageBase + s.virtualAddress);
      && u.Success?
      && SplitSections(file, img, cfg, k + 1).Success?
      && SplitSections(file, img, cfg, k).value
         == [Region(s.name.value, img.imageBase + s.virtualAddress, u.value)] + SplitSections(file, img, cfg, k + 1).value
  {
    SplitSectionsStepPasses(file, img, cfg, k);
    var s := img.sections[k];
    var name := s.name.value;
    var u := SectionUnits(file, img.imageBase, s, name, cfg.sections[FindDescSection(cfg.sections, name).value].units, 0, img.imageBase + s.virtualAddress);
    var rest := SplitSections(file, img, cfg, k + 1);
    assert SplitSections(file, img, cfg, k) == Success([Region(name, img.imageBase + s.virtualAddress, u.value)] + rest.value);
  }

  /** Every region of a successful section loop fits its PE section, in PE order. */
  lemma {:induction false} SplitSectionsFit(file: seq<Byte>, img: PeImage, cfg: Config, k: nat)
    requires k <= |img.sections|
    requires SplitSections(file, img, cfg, k).Success?
    ensures RegionsFitFrom(file, img, cfg, k, SplitSections(file, img, cfg, k).value)
    decreases |img.sections| - k
  {
    if k < |img.sections| {
      SplitSectionsStep(file, img, cfg, k);
      var all := SplitSections(file, img, cfg, k).value;
      var sec := img.sections[k];
      var c := FindDescSection(cfg.sections, sec.name.value).value;
      var arts := SectionUnits(file, img.imageBase, sec, sec.name.value, cfg.sections[c].units, 0, img.imageBase + sec.virtualAddress).value;
      SectionRegionFits(file, img, cfg, sec, sec.name.value, c, arts);
      SplitSectionsFit(file, img, cfg, k + 1);
      RegionsFitCons(file, img, cfg, k, Region(sec.name.value, img.imageBase + sec.virtualAddress, arts), SplitSections(file, img, cfg, k + 1).value);
    }
  }

  lemma RegionsFitCons(file: seq<Byte>, img: PeImage, cfg: Config, k: nat, head: Region, rest: seq<Region>)
    requires k < |img.sections|
    requires RegionFits(file, img, cfg, img.sections[k], head)
    requires RegionsFitFrom(file, img, cfg, k + 1, rest)
    ensures RegionsFitFrom(file, img, cfg, k, [head] + rest)
  {
    var all := [head] + rest;
    forall j | 0 <= j < |all| && k + j < |img.sections|
      ensures RegionFits(file, img, cfg, img.sections[k + j], all[j])
    {
      if j > 0 {
        assert all[j] == rest[j - 1];
        assert (k + 1) + (j - 1) == k + j;
      }
    }
  }

  /** PE section `k` has a decodable name, a descriptor section of that
      name, and units that pass the unit loop. */
  ghost predicate SectionPasses(file: seq<Byte>, img: PeImage, cfg: Config, k: nat)
    requires k < |img.sections|
  {
    var s := img.sections[k];
    && s.name.Some?
    && FindDescSection(cfg.sections, s.name.value).Some?
    && SectionUnits(file, img.imageBase, s, s.name.value, cfg.sections[FindDescSection(cfg.sections, s.name.value).value].units,
         0, img.imageBase + s.virtualAddress).Success?
  }

  /** A name failure of the loop from `k` is section `k`'s own, or comes
      from the rest of the loop past a section that passes. */
  lemma SplitSectionsHead(file: seq<Byte>, img: PeImage, cfg: Config, k: nat)
    requires k < |img.sections|
    ensures var r := SplitSections(file, img, cfg, k);
      r.Failure? && (r.error.BadSectionName? || r.error.MissingUnitConfiguration?) ==>
        || (img.sections[k].name.None? && r.error == BadSectionName(k))
        || (&& img.sections[k].name.Some?
            && FindDescSection(cfg.sections, img.sections[k].name.value).None?
            && r.error == MissingUnitConfiguration(img.sections[k].name.value))
        || (SectionPasses(file, img, cfg, k) && r == SplitSections(file, img, cfg, k + 1))
  {
  }

  /** The loop from `k` succeeds when section `k` passes and the loop from `k + 1` succeeds. */
  lemma SplitSectionsExtend(file: seq<Byte>, img: PeImage, cfg: Config, k: nat)
    requires k < |img.sections|
    requires SectionPasses(file, img, cfg, k)
    requires SplitSections(file, img, cfg, k + 1).Success?
    ensures SplitSections(file, img, cfg, k).Success?
  {
  }

  /** A section loop that fails on a name reports the first PE section
      whose name does not decode: every section before it passes. */
  lemma {:induction false} SplitSectionsRejectsName(file: seq<Byte>, img: PeImage, cfg: Config, k: nat)
    requires k <= |img.sections|
    ensures var r := SplitSections(file, img, cfg, k);
      r.Failure? && r.error.BadSectionName? ==>
        && k <= r.error.section < |img.sections|
        && img.sections[r.error.section].name.None?
        && forall i :: k <= i < r.error.section ==> SectionPasses(file, img, cfg, i)
    decreases |img.sections| - k
  {
    var r := SplitSections(file, img, cfg, k);
    if r.Failure? && r.error.BadSectionName? {
      assert k < |img.sections|;
      SplitSectionsHead(file, img, cfg, k);
      if img.sections[k].name.Some? {
        SplitSectionsRejectsName(file, img, cfg, k + 1);
      }
    }
  }

  /** A section loop that fails for want of a descriptor section reports the
      first PE section the descriptor lacks, every section before it
      passing; descriptor sections the image lacks are never looked at. */
  lemma {:induction false} SplitSectionsRejectsMissing(file: seq<Byte>, img: PeImage, cfg: Config, k: nat)
    requires k <= |img.sections|
    ensures var r := SplitSections(file, img, cfg, k);
      r.Failure? && r.error.MissingUnitConfiguration? ==>
        && FindDescSection(cfg.sections, r.error.name).None?
        && exists t :: (&& k <= t < |img.sections|
                        && img.sections[t].name == Some(r.error.name)
                        && forall i :: k <= i < t ==> SectionPasses(file, img, cfg, i))
    decreases |img.sections| - k
  {
    var r := SplitSections(file, img, cfg, k);
    if r.Failure? && r.error.MissingUnitConfiguration? {
      assert k < |img.sections|;
      SplitSectionsHead(file, img, cfg, k);
      var s := img.sections[k];
      if s.name.Some? && FindDescSection(cfg.sections, s.name.value).None? {
        assert img.sections[k].name == Some(r.error.name);
      } else {
        SplitSectionsRejectsMissing(file, img, cfg, k + 1);
        var t :| (&& k + 1 <= t < |img.sections|
                  && img.sections[t].name == Some(r.error.name)
                  && forall i :: k + 1 <= i < t ==> SectionPasses(file, img, cfg, i));
        assert forall i :: k <= i < t ==> SectionPasses(file, img, cfg, i);
      }
    }
  }

  /** PE section `k` has a decodable name and a descriptor section of that
      name, and its unit loop fails with `e`. */
  ghost predicate SectionFailsWith(file: seq<Byte>, img: PeImage, cfg: Config, k: nat, e: SplitError)
    requires k < |img.sections|
  {
    var s := img.sections[k];
    && s.name.Some?
    && FindDescSection(cfg.sections, s.name.value).Some?
    && SectionUnits(file, img.imageBase, s, s.name.value, cfg.sections[FindDescSection(cfg.sections, s.name.value).value].units,
         0, img.imageBase + s.virtualAddress) == Failure(e)
  }

  /** A unit error of the section loop is the error of the first PE section
      whose unit loop fails, every section before it passing; the error
      names that section. */
  lemma {:induction false} SplitSectionsFailsFirst(file: seq<Byte>, img: PeImage, cfg: Config, k: nat, e: SplitError)
    requires k <= |img.sections|
    requires SplitSections(file, img, cfg, k) == Failure(e)
    requires !e.RawDataOutOfFile? && !e.BadSectionName? && !e.MissingUnitConfiguration?
    ensures exists t :: (&& k <= t < |img.sections|
                         && img.sections[t].name == Some(e.name)
                         && SectionFailsWith(file, img, cfg, t, e)
                         && forall i :: k <= i < t ==> SectionPasses(file, img, cfg, i))
    decreases |img.sections| - k
  {
    assert k < |img.sections|;
    if SectionPasses(file, img, cfg, k) {
      assert SplitSections(file, img, cfg, k + 1) == Failure(e);
      SplitSectionsFailsFirst(file, img, cfg, k + 1, e);
      var t :| k + 1 <= t < |img.sections| && img.sections[t].name == Some(e.name) && SectionFailsWith(file, img, cfg, t, e)
        && forall i :: k + 1 <= i < t ==> SectionPasses(file, img, cfg, i);
      assert forall i :: k <= i < t ==> SectionPasses(file, img, cfg, i);
    } else {
      assert SectionFailsWith(file, img, cfg, k, e);
    }
  }

  /** The section loop from `k` succeeds exactly when every PE section from
      `k` on passes. */
  lemma {:induction false} SplitSectionsSucceeds(file: seq<Byte>, img: PeImage, cfg: Config, k: nat)
    requires k <= |img.sections|
    ensures SplitSections(file, img, cfg, k).Success? <==> forall i :: k <= i < |img.sections| ==> SectionPasses(file, img, cfg, i)
    decreases |img.sections| - k
  {
    if k < |img.sections| {
      SplitSectionsSucceeds(file, img, cfg, k + 1);
      SplitSectionsUncons(file, img, cfg, k);
      assert (forall i :: k <= i < |img.sections| ==> SectionPasses(file, img, cfg, i))
        <==> SectionPasses(file, img, cfg, k) && forall i :: k + 1 <= i < |img.sections| ==> SectionPasses(file, img, cfg, i);
    }
  }

  /** The loop from `k` succeeds exactly when section `k` passes and the loop from `k + 1` succeeds. */
  lemma SplitSectionsUncons(file: seq<Byte>, img: PeImage, cfg: Config, k: nat)
    requires k < |img.sections|
    ensures SplitSections(file, img, cfg, k).Success? <==> SectionPasses(file, img, cfg, k) && SplitSections(file, img, cfg, k + 1).Success?
  {
    if SplitSections(file, img, cfg, k).Success? {
      SplitSectionsStep(file, img, cfg, k);
    } else if SectionPasses(file, img, cfg, k) && SplitSections(file, img, cfg, k + 1).Success? {
      SplitSectionsExtend(file, img, cfg, k);
    }
  }

  /** The split stage: the donee template, then the link script. */
  function Split(file: seq<Byte>, img: PeImage, cfg: Config): (r: Result<SplitOutput, SplitError>)
    ensures r.Success? ==> RawRangesInFile(file, img.sections)
    ensures r.Success? ==> |r.value.donee| == |file|
    ensures r.Success? ==> forall p :: 0 <= p < |file| ==> r.value.donee[p] == if Covered(img.sections, p) then 0 else file[p]
    ensures r.Success? ==> r.value.script.start == img.imageBase + img.entry
    ensures r.Success? ==> |r.value.script.regions| == |img.sections|
    ensures r.Success? ==> forall j :: 0 <= j < |img.sections| ==> RegionFits(file, img, cfg, img.sections[j], r.value.script.regions[j])
    ensures !RawRangesInFile(file, img.sections) ==> r.Failure? && r.error.RawDataOutOfFile?
  {
    match Donee(file, img.sections)
    case Failure(e) => Failure(e)
    case Success(donee) =>
      match SplitSections(file, img, cfg, 0)
      case Failure(e) => Failure(e)
      case Success(regions) =>
        SplitSectionsFit(file, img, cfg, 0);
        assert forall j :: 0 <= j < |regions| ==> RegionFits(file, img, cfg, img.sections[0 + j], regions[j]);
        Success(SplitOutput(donee, LinkScript(img.imageBase + img.entry, regions)))
  }

  /** The split stage succeeds exactly when every section's raw range lies
      in the file and every PE section passes. */
  lemma SplitSucceeds(file: seq<Byte>, img: PeImage, cfg: Config)
    ensures Split(file, img, cfg).Success? <==>
      RawRangesInFile(file, img.sections) && forall i :: 0 <= i < |img.sections| ==> SectionPasses(file, img, cfg, i)
  {
    SplitSectionsSucceeds(file, img, cfg, 0);
  }

  /** A unit error of the split stage comes after every raw range checked
      out, and is the error of the first PE section whose unit loop fails,
      every section before it passing. */
  lemma SplitFailsFirst(file: seq<Byte>, img: PeImage, cfg: Config, e: SplitError)
    requires Split(file, img, cfg) == Failure(e)
    requires !e.RawDataOutOfFile? && !e.BadSectionName? && !e.MissingUnitConfiguration?
    ensures RawRangesInFile(file, img.sections)
    ensures exists t :: (&& 0 <= t < |img.sections|
                         && img.sections[t].name == Some(e.name)
                         && SectionFailsWith(file, img, cfg, t, e)
                         && forall i :: 0 <= i < t ==> SectionPasses(file, img, cfg, i))
  {
    SplitSectionsFailsFirst(file, img, cfg, 0, e);
  }

  /** A name or configuration error of the split stage comes after every
      raw range checked out, and reports the first PE section that fails
      that way, every section before it passing. */
  lemma SplitRejectsSection(file: seq<Byte>, img: PeImage, cfg: Config)
    ensures var r := Split(file, img, cfg);
      r.Failure? && r.error.BadSectionName? ==>
        && RawRangesInFile(file, img.sections)
        && r.error.section < |img.sections|
        && img.sections[r.error.section].name.None?
        && forall i :: 0 <= i < r.error.section ==> SectionPasses(file, img, cfg, i)
    ensures var r := Split(file, img, cfg);
      r.Failure? && r.error.MissingUnitConfiguration? ==>
        && RawRangesInFile(file, img.sections)
        && FindDescSection(cfg.sections, r.error.name).None?
        && exists t :: (&& 0 <= t < |img.sections|
                        && img.sections[t].name == Some(r.error.name)
                        && forall i :: 0 <= i < t ==> SectionPasses(file, img, cfg, i))
  {
    SplitSectionsRejectsName(file, img, cfg, 0);
    SplitSectionsRejectsMissing(file, img, cfg, 0);
  }

  /** The object files a region lists, in unit order. */
  function Objects(region: Region): (objs: seq<ObjectRef>)
    ensures |objs| == |region.artifacts|
    ensures forall j :: 0 <= j < |objs| ==>
      && objs[j].section == region.name
      && objs[j].unit == j
      && (objs[j].kind == CopyObject <==> region.artifacts[j].CopySource?)
  {
    seq(|region.artifacts|, j requires 0 <= j < |region.artifacts| =>
      ObjectRef(region.name, if region.artifacts[j].CopySource? then CopyObject else AsmObject, j))
  }

  /** In the link script of a successful split, the region of PE section `k`
      lists one object per unit of that section's descriptor entry, in unit
      order: named by the section and the unit's index, a copy object for a
      copy unit and an assembly object otherwise. */
  lemma SplitObjects(file: seq<Byte>, img: PeImage, cfg: Config, k: nat)
    requires Split(file, img, cfg).Success?
    requires k < |img.sections|
    ensures var region := Split(file, img, cfg).value.script.regions[k];
      && img.sections[k].name == Some(region.name)
      && FindDescSection(cfg.sections, region.name).Some?
      && var units := cfg.sections[FindDescSection(cfg.sections, region.name).value].units;
      && |Objects(region)| == |units|
      && forall j :: 0 <= j < |units| ==>
           Objects(region)[j] == ObjectRef(region.name, if ParseKind(units[j].kind) == Copy then CopyObject else AsmObject, j)
  {
    var region := Split(file, img, cfg).value.script.regions[k];
    assert RegionFits(file, img, cfg, img.sections[k], region);
    var units := cfg.sections[FindDescSection(cfg.sections, region.name).value].units;
    forall j | 0 <= j < |units|
      ensures Objects(region)[j] == ObjectRef(region.name, if ParseKind(units[j].kind) == Copy then CopyObject else AsmObject, j)
    {
      assert ArtifactFits(file, img.sections[k], units, 0 + j, region.artifacts[j]);
    }
  }
}

=== FILE: wrappers.dfy ===
/** Failure-compatible wrappers shared by every pipeline stage. */
module Wrappers {

  /** An optional value: a lookup that may find nothing. */
  datatype Option<+T> = None | Some(value: T)

  /** The outcome of a stage: a value, or the error that aborted it. */
  datatype Result<+T, +E> = Success(value: T) | Failure(error: E) {

    predicate IsFailure() {
      Failure?
    }

    function PropagateFailure<U>(): Result<U, E>
      requires Failure?
    {
      Failure(error)
    }

    function Extract(): T
      requires Success?
    {
      value
    }
  }
}
